=== FILE: README.md ===
# iMATOMs console core in Dafny

A model of the decision logic inside the iMATOMs facilities console, a React
application. The model is written as immutable datatypes and pure functions
over sequences, with the properties each component relies on proved about
them. It covers:

- **Threshold-alert ledger** (`Analytics`, components/AIAnalytics.tsx). This
  covers the default threshold set and its load fallback, and the per-field
  threshold edit. It also covers one sampling tick, which classifies each
  sample against `[min, max]` and counts the alerting configs. The tick logs
  new alerts with the MIN/MAX bound crossed and a 60-second de-duplication,
  prepending them to the ledger. Finally it covers the password-gated clear
  and the correction that resolves alerts.
- **Alarm beeper** (`Beeper`, components/AIAnalytics.tsx). This is the interval
  bookkeeping of the effect that should sound while alerts are active and the
  alarm is not muted. It comes in two versions, as written and corrected (see
  Findings).
- **Work-order lifecycle** (`WorkOrders`, components/WorkOrderManager.tsx).
  Orders move Pending → On Process → Complete through create, assign and
  complete. The model also covers request numbering, the per-state counters,
  the helpdesk and technician queues, the urgent counter and the priority
  badge.
- **Sign-in and registration** (`Login`, components/Login.tsx). This covers
  seeding the administrator account, validating a registration, rejecting a
  duplicate, and gating sign-in on approval status.
- **User administration** (`Admin`, components/AdminManager.tsx). This covers
  status changes, confirmed deletion, edit-replace, the status filter and
  which row actions are offered.
- **Dashboard** (`Dashboard`, components/MainDashboard.tsx). This covers the
  pending-registration and open-alert counters read from storage, the badges,
  the administrator-only sidebar section and the alerting module card.
- **Application shell** (`App`, App.tsx). This is the sign-in gate and the
  screen state machine. Its invariant guarantees that a user is always
  present wherever the source asserts one with `user!`.

The records of types.ts that the modelled screens use are the datatypes of `Types`, with the fields those screens read or write. Alert thresholds,
user roles and statuses, work-order states and signal states are closed
enumerations by construction. An alert is open exactly when it has no
`resolvedAt`.

Conventions used throughout:

- Time is milliseconds since the epoch (`Millis`), passed in as `now`.
- Samples are `real`s given as inputs, one per config.
- Each browser-storage key is an `Option` holding its list, `None` when
  nothing is stored.
- Confirmation dialogs are `bool` inputs.
- Helper modules:
  - `Wrappers` provides `Option`;
  - `Seqs` counts and filters sequences;
  - `Text` covers decimal digits, zero padding, substring search and the
    prefix before a separator.

## Model

| member | source | states |
|---|---|---|
| Analytics.DefaultConfigs | components/AIAnalytics.tsx:10-16 | the built-in threshold set has five configs with distinct ids, each with its nominal value strictly between its bounds |
| Analytics.LoadConfigs | components/AIAnalytics.tsx:32-46 | with nothing stored, the panel uses exactly the built-in default set (five well-ordered configs with distinct ids) and stores it; otherwise it uses the stored configs as they are; either way storage ends up holding the configs in use |
| Analytics.LoadIsStable | components/AIAnalytics.tsx:32-46 | loading again from what the first load stored yields the same configs and storage: the fallback runs at most once |
| Analytics.UpdateConfig | components/AIAnalytics.tsx:160-163 | a threshold edit changes only the named numeric field of the configs with the given id; ids, names, units, links, order and length are kept |
| Analytics.UpdateConfigUndo | components/AIAnalytics.tsx:160-163 | with distinct ids, writing back a field's old value restores the exact config list |
| Analytics.UpdateConfigSkipsValidation | components/AIAnalytics.tsx:160-163 | an edit is accepted even when it breaks `min < standard < max` (X-RAY minimum raised to 30 above the standard 24) |
| Analytics.Classify | components/AIAnalytics.tsx:70-78 | a signal carries the config id, the sample and the time, and is Alert exactly when the sample lies outside `[min, max]` |
| Analytics.SignalsCover | components/AIAnalytics.tsx:64-78 | the snapshot has an entry for every sampled config id and for nothing else |
| Analytics.SignalsLastWins | components/AIAnalytics.tsx:73-78 | the snapshot entry under a config's id is that config's classification unless a later config with the same id overwrote it |
| Analytics.NewAlert | components/AIAnalytics.tsx:84-92 | a new record is open, is MAX exactly when the sample exceeds the maximum, carries the bound it crossed, and lies beyond that bound on the named side |
| Analytics.LedgerKeepsOld | components/AIAnalytics.tsx:93 | the ledger only grows at the head: the previous ledger follows unchanged and in order, after one record per fresh config |
| Analytics.LedgerNewAreFresh | components/AIAnalytics.tsx:80-95 | every record a tick adds is the alert of a config that is out of bounds and has no open alert younger than a minute |
| Analytics.LedgerFreshAreNew | components/AIAnalytics.tsx:80-95 | every config out of bounds without a recent open alert gets its record among the new ones |
| Analytics.Tick | components/AIAnalytics.tsx:59-100 | one sampling tick: one snapshot entry per config id; the alert count equals the number of out-of-bounds configs; with distinct ids each status is Alert iff its sample is out of bounds; the new records are exactly the alerts of the fresh configs, ahead of the unchanged old ledger |
| Analytics.TickCount | components/AIAnalytics.tsx:70-71 | the running alert counter equals the size of the set of out-of-bounds configs |
| Analytics.TickSignals | components/AIAnalytics.tsx:61-98 | the snapshot a tick sets holds one entry per config id, and with distinct ids each entry's status is its config's classification |
| Analytics.TickLedger | components/AIAnalytics.tsx:80-95 | the ledger a tick leaves has one new record per fresh config, each the fresh config's alert, ahead of the unchanged old ledger |
| Analytics.RecordIfNew | components/AIAnalytics.tsx:81-94 | an in-bounds sample, or an open alert of the config younger than a minute, leaves the ledger unchanged; otherwise exactly one record is prepended and the old ledger follows |
| Analytics.DedupWithinWindow | components/AIAnalytics.tsx:82 | two out-of-bounds samples of one config less than a minute apart add at most one record |
| Analytics.NewRecordAfterWindow | components/AIAnalytics.tsx:82-93 | two out-of-bounds samples a minute or more apart, with no recent open alert before, add two records |
| Analytics.ClearHistory | components/AIAnalytics.tsx:140-149 | the ledger is emptied exactly when the password is `Clear123`; any other password leaves it unchanged and reports "Incorrect Admin Password" |
| Analytics.Correct | components/AIAnalytics.tsx:155 | every record with the id gets the note and `resolvedAt = now`, its other fields untouched; other records and the length are unchanged |
| Analytics.SaveCorrection | components/AIAnalytics.tsx:151-158 | with no record selected nothing changes; otherwise every record sharing the selected id gets the note and `resolvedAt = now` with its other fields kept, every record with another id is unchanged, and the length is kept |
| Analytics.CorrectOverwrites | components/AIAnalytics.tsx:155 | correcting twice is the same as correcting once with the second note and time: an earlier resolution is overwritten |
| Analytics.CorrectOpenCount | components/AIAnalytics.tsx:155 | a correction lowers the number of open records by exactly the number of open records carrying its id |
| Analytics.SameTickAlertsShareId | components/AIAnalytics.tsx:85 | two configs alerting in one tick can get records with the same id (when both are raised in the same millisecond), and then correcting one resolves both |
| Analytics.DefaultScenario | components/AIAnalytics.tsx:64-99 | with the defaults and only the X-RAY sample above 28, one config alerts and one MAX record with bound 28 is logged |
| Beeper.Cleanup | components/AIAnalytics.tsx:135-137 | the cleanup as written stops every running interval but keeps the handle in the ref |
| Beeper.EffectRun | components/AIAnalytics.tsx:106-138 | as written, a re-run never leaves an interval the ref does not name, so at most one runs |
| Beeper.Mount | components/AIAnalytics.tsx:106-133 | the first run leaves the timers consistent with the ref |
| Beeper.Rerender | components/AIAnalytics.tsx:106-138 | the effect re-runs only when the alert count or the mute flag changed, and at most one interval runs afterwards |
| Beeper.Unmount | components/AIAnalytics.tsx:135-137 | unmounting leaves no interval running |
| Beeper.Replay | components/AIAnalytics.tsx:106-138 | after any sequence of renders, as written, at most one interval runs |
| Beeper.CountChangeSilencesBeeper | components/AIAnalytics.tsx:106-138 | as written, an alert count moving from 1 to 2 while unmuted leaves no interval running although the alarm should sound |
| Beeper.CleanupFixed | components/AIAnalytics.tsx:129-137 | the corrected cleanup stops the interval and empties the ref |
| Beeper.EffectRunFixed | components/AIAnalytics.tsx:106-138 | corrected, after a re-run exactly one interval runs when alerts are active and not muted, and none otherwise |
| Beeper.ReplayFixed | components/AIAnalytics.tsx:106-138 | corrected, after any sequence of renders the running intervals are exactly the one the ref names |
| Beeper.FixedBeeperTracksAlerts | components/AIAnalytics.tsx:106-138 | corrected, after any sequence of renders an interval runs iff `activeAlertCount > 0 && !isMuted`, and never more than one |
| WorkOrders.SeedOrders | components/WorkOrderManager.tsx:11-27 | the manager starts with one Pending and one On Process order |
| WorkOrders.RequestNumber | components/WorkOrderManager.tsx:111 | a request number is `RM24-` followed by exactly five digits whose value is the draw |
| WorkOrders.RequestNumberInjective | components/WorkOrderManager.tsx:111 | different draws give different request numbers |
| WorkOrders.CreateRequest | components/WorkOrderManager.tsx:107-130 | creation appends exactly one Pending order with the form and the drawn number, with no assignment or completion fields, and leaves earlier orders unchanged |
| WorkOrders.CreateMayDuplicateNumber | components/WorkOrderManager.tsx:111-128 | the number is not checked against existing orders: drawing 125 next to the seed orders gives two orders numbered `RM24-00125` |
| WorkOrders.CreateAddsPending | components/WorkOrderManager.tsx:107-130 | creation raises the Pending count by one and leaves the other counts |
| WorkOrders.Assign | components/WorkOrderManager.tsx:132-145 | with nothing selected nothing changes; otherwise every order with the selected number goes On Process with the technician, helpdesk and time, keeping its request and completion fields; other orders and the length are unchanged |
| WorkOrders.Complete | components/WorkOrderManager.tsx:147-160 | with nothing selected nothing changes; otherwise every order with the selected number goes Complete with the repair detail, the rating and 45 minutes, keeping its request and assignment fields; other orders and the length are unchanged |
| WorkOrders.AssignFromQueue | components/WorkOrderManager.tsx:132-145 | with unique numbers, assigning a Pending order moves exactly one order from Pending to On Process |
| WorkOrders.CompleteFromQueue | components/WorkOrderManager.tsx:147-160 | with unique numbers, completing an On Process order moves exactly one order from On Process to Complete |
| WorkOrders.DuplicateNumberReopens | components/WorkOrderManager.tsx:111-160 | after the seed order `RM24-00125` is assigned and closed and a new request draws 125, assigning the new request moves the closed order back to On Process |
| WorkOrders.StateCountsPartition | components/WorkOrderManager.tsx:168-171 | the Pending, On Process and Complete counts add up to the total |
| WorkOrders.HelpdeskQueue | components/WorkOrderManager.tsx:217 | the helpdesk queue holds exactly the Pending orders, as many as the Pending counter shows |
| WorkOrders.TechnicianQueue | components/WorkOrderManager.tsx:239 | the technician queue holds exactly the On Process orders, as many as the Processing counter shows |
| WorkOrders.QueuesFollowOrder | components/WorkOrderManager.tsx:217-239 | both queues keep the orders' original order: they distribute over any split of the list |
| WorkOrders.UrgentCount | components/WorkOrderManager.tsx:172 | the urgent counter never exceeds the number of orders |
| WorkOrders.UrgentIffHigh | components/WorkOrderManager.tsx:172 | of the four priorities the form offers, an order is urgent iff its priority is `High<5min`; `Critical` is not urgent |
| WorkOrders.PriorityBadge | components/WorkOrderManager.tsx:396 | the badge is the longest prefix of the priority without `<`, and the priority continues with `<` if anything follows it |
| Login.EnsureAdmin | components/Login.tsx:27-40 | when no user is named `admin` the seed administrator is appended, otherwise the list is untouched; afterwards an `admin` always exists |
| Login.FindUser | components/Login.tsx:74 | sign-in picks the first user whose name and stored password both match, and reports none when no user matches |
| Login.NewUser | components/Login.tsx:54-63 | a registration creates a Pending, non-administrator account with the typed name, e-mail, password and building, created at `now`, with an id `user-` followed by the decimal time |
| Login.Submit | components/Login.tsx:18-87 | registration fails with its message on an empty field or a taken name or e-mail, and otherwise appends exactly the new account; sign-in reports pending, rejected or invalid credentials, and otherwise logs in the first matching user; storage changes only by seeding the administrator or registering |
| Login.OnlyApprovedSignIn | components/Login.tsx:74-83 | only an approved account signs in, and only with the name and password typed |
| Login.SeedAdminSignsIn | components/Login.tsx:27-40 | with no `admin` stored, the hinted credentials sign in as the seed administrator, who is then stored |
| Login.SubmitKeepsUsernamesUnique | components/Login.tsx:28-66 | a submit preserves unique usernames: from a stored list without repeated names it never stores two accounts with the same name |
| Login.RegisteredCannotSignIn | components/Login.tsx:54-78 | right after registering, signing in with the same credentials reports that approval is pending |
| Admin.Open | components/AdminManager.tsx:14-19 | the screen shows the stored list, or an empty one when nothing is stored |
| Admin.Commit | components/AdminManager.tsx:21-24 | a written list is both shown and stored, and remounting the screen from what was stored shows that same list |
| Admin.Handle | components/AdminManager.tsx:21-48 | a status change, a confirmed deletion or a saved edit shows the changed list and writes it to storage; an unconfirmed deletion or a save with nothing being edited changes nothing; a screen in step with storage stays in step |
| Admin.Session | components/AdminManager.tsx:14-48 | after mounting and any sequence of requests, the screen is either untouched since mounting or shows exactly what storage holds, and it always does when something was stored at mount |
| Admin.SetStatus | components/AdminManager.tsx:26-29 | only the status of the accounts with the id changes; every other field and account and the length are kept |
| Admin.DecidingLowersPending | components/AdminManager.tsx:26-29 | with unique ids, approving or rejecting a pending account lowers the pending counter by one |
| Admin.ApprovalEnablesSignIn | components/AdminManager.tsx:26-29 | with unique names, approving an account with a password lets it sign in with its credentials |
| Admin.Delete | components/AdminManager.tsx:31-36 | without confirmation nothing changes; with it, exactly the accounts with the id are removed and all others remain |
| Admin.DeleteKeepsOrder | components/AdminManager.tsx:33 | the accounts that remain after a deletion keep their original order |
| Admin.SaveEdit | components/AdminManager.tsx:42-48 | with no account being edited nothing changes; otherwise the accounts with the edited id are replaced by the edited record, the others and the length are kept |
| Admin.SaveEditKeepsUniqueNames | components/AdminManager.tsx:42-48 | with unique ids and names, an edit that keeps the account's name or picks one no other account uses keeps usernames unique |
| Admin.SaveEditMayDuplicateName | components/AdminManager.tsx:42-48 | an edit is not checked against other accounts: renaming `carol` to `bob` next to `bob` stores two accounts named `bob` |
| Admin.Visible | components/AdminManager.tsx:50-52 | the All filter shows every account; a status filter shows exactly the accounts with that status |
| Admin.VisibleKeepsOrder | components/AdminManager.tsx:50-52 | the filtered rows keep their original order |
| Admin.FiltersPartition | components/AdminManager.tsx:50-52 | the Pending, Approved and Rejected filters between them show every account exactly once |
| Admin.PendingCount | components/AdminManager.tsx:94 | the header's Pending counter equals the number of rows the Pending filter shows |
| Admin.Offered | components/AdminManager.tsx:143-156 | the account named `admin` offers no action; any other offers Approve iff not approved, Reject iff not rejected, and always Edit and Delete |
| Admin.DecisionsOffered | components/AdminManager.tsx:143-156 | a pending account offers four actions, a decided one three: it can only be moved to the other decision |
| Dashboard.OpenAlerts | components/MainDashboard.tsx:28 | the alert counter is the number of stored records without `resolvedAt` |
| Dashboard.CheckStatus | components/MainDashboard.tsx:19-30 | a stored user list sets the pending counter to the number of pending accounts, the rows the administration Pending filter shows; a stored ledger sets the alert counter to its open records; a missing key keeps the previous value |
| Dashboard.TickRaisesBadge | components/MainDashboard.tsx:25-28 | after a sampling tick the alert counter grows by exactly the number of records the tick logged |
| Dashboard.CorrectionLowersBadge | components/MainDashboard.tsx:28 | saving a correction for an open record strictly lowers the alert counter |
| Dashboard.CheckStatusIdempotent | components/MainDashboard.tsx:19-30 | polling twice against unchanged storage gives the counters one poll gives |
| Dashboard.ClearZeroesBadge | components/AIAnalytics.tsx:140-149 | once the ledger is cleared with the right password, the alert counter computed from it is zero |
| Dashboard.Badge | components/MainDashboard.tsx:218 | a badge is drawn exactly when its count is positive, and shows that count |
| Dashboard.Sidebar | components/MainDashboard.tsx:59-80 | the sidebar always links, in order, to Mobile Apps Hub, Dashboard Monitor, AI Analytics, Asset Database, Work Order, PPM Schedule and Inventory; the administration link exists iff the user is an administrator, and it carries the pending badge; the AI Analytics link carries the alert badge; no badge shows zero |
| Dashboard.Cards | components/MainDashboard.tsx:137-178 | only the AI Analytics card can glow, and it does exactly when some alert is open; no card leads to the administration screen |
| App.SignIn | App.tsx:20-23 | signing in stores the user and sets the logged-in flag without changing the view |
| App.SignOut | App.tsx:25-29 | logging out clears the user and the flag and returns to the main view |
| App.AdminLinkOnlyForAdmins | components/MainDashboard.tsx:74-80 | only an administrator's dashboard offers a way to the administration screen |
| App.Step | App.tsx:20-58 | each event acts only where its screen is shown: a successful sign-in logs in the found user; navigation from the dashboard goes to an offered screen; Back returns to the main view; logout resets; every other event changes nothing; validity is preserved |
| App.Run | App.tsx:15-63 | in every reachable state a signed-in session has an approved user, a signed-out one has no user and shows the main view, and only an administrator is on the administration screen |
| App.Render | App.tsx:31-62 | the sign-in form is shown exactly while signed out; otherwise the current view is shown with the signed-in user, which is always present |
| App.SignInLandsOnMain | App.tsx:20-33 | a successful sign-in from any signed-out state shows the dashboard for the account found |
| App.BackReturnsToDashboard | App.tsx:38-56 | navigating from the dashboard to any offered screen and pressing Back restores the exact previous state |

## Left out

- The random drift and the two-decimal rounding of the simulated samples are not modelled. The samples are inputs.
- The interval timers (3-second sampling, 1-second tone, 1-second clock, 3-second dashboard poll) and React's effect scheduling are not modelled. One tick or one poll is one function call.
- The tone generator and the audio context are left out. Only the interval bookkeeping of the alarm is modelled.
- Browser storage and JSON encoding are left out. Each key is an `Option` of its list, and unparsable stored text is not modelled.
- ISO-8601 timestamp strings are replaced by milliseconds. Date and time display formatting is left out.
- The `Number(...)` parse in the threshold edit is not modelled. The new value is a `real` input, so text that parses to `NaN` is not covered.
- Only the three numeric fields the configuration screen edits can be changed by an edit.
- The X-RAY unit is the degree Celsius sign. The source file shows it double-encoded.
- `window.confirm` and `alert` dialogs are `bool` inputs or outcome messages.
- Form parsing is left out. The request form, the assignment and completion fields, the sign-in form and the edited account are inputs.
- Chart rendering, the hard-coded chart data and master data, the dashboard's snapshot figures and the sidebar's open/closed state are presentation only.
- The asset, PPM, inventory, mobile-apps and monitor screens are not part of this model. `App` only knows that each has a Back action to the main view.
- The pre-filled sign-in fields and the success banner are presentation.
- Records of other screens are omitted: AppSheetRecord, InventoryItem, InventoryTransaction, Asset, AnnualRecord, PPMTask and MasterData (types.ts). So are the WorkOrder fields no modelled handler writes: `id`, `created_at`, the helpdesk evaluation, technician assignment, actual dates and times, manpower, categories, separate detail, equipment code, costs, spare parts, result and note.
- Analytics.Tick: the claim that each snapshot status is Alert iff its sample is out of bounds is stated only when config ids are distinct. With a repeated id, the last config with that id determines the entry (Analytics.SignalsLastWins).
- Analytics.CorrectOverwrites: correcting an already resolved record overwrites its note and time, as components/AIAnalytics.tsx:155 does. Only the screen keeps this from happening: it offers the correction button for unresolved rows alone (components/AIAnalytics.tsx:370).
- Analytics.SameTickAlertsShareId: a tick reads the clock once (`now`). The source reads it for each config (components/AIAnalytics.tsx:77, 82, 85, 91), so ids collide only when both alerts are raised in the same millisecond.
- Login.NewUser: the id and `created_at` come from one clock read. The source reads the clock twice (components/Login.tsx:54 and 62), so the two can differ by the time between the reads.
- WorkOrders.UrgentCount: its contract bounds the count only. Which priorities count as urgent is stated by WorkOrders.UrgentIffHigh for the four offered priorities.
- WorkOrders.AssignFromQueue: the count shift is proved only when request numbers are unique. Creation does not keep them unique (WorkOrders.CreateMayDuplicateNumber).
- WorkOrders.CompleteFromQueue: the count shift is proved only when request numbers are unique, which creation does not guarantee. With a repeated number, assigning or completing one order also changes every order sharing its number (WorkOrders.DuplicateNumberReopens).
- Login.SubmitKeepsUsernamesUnique: uniqueness is preserved by a submit but is not an invariant of the stored list. An administrator's edit can rename an account to a name already in use (Admin.SaveEditMayDuplicateName).
- Beeper: only the corrected version tracks the alert state. The as-written version is kept to exhibit the defect.

## Findings

| source | as written | input that shows it | evidently intended | confidence | as-written member | corrected member |
|---|---|---|---|---|---|---|
| components/AIAnalytics.tsx:135-137 | the effect's cleanup clears the beeper interval but leaves its handle in the ref, so the next run sees a handle and starts no interval | renders with (alert count, muted) = (0, false), (1, false), (2, false): after the third render the alarm should sound but no interval runs | the cleanup also empties the ref, as the else branch at lines 129-132 does, so an interval runs exactly while alerts are active and the alarm is not muted | high; not executed | Beeper.CountChangeSilencesBeeper | Beeper.FixedBeeperTracksAlerts |

=== FILE: admin.dfy ===
/** The user administration screen (components/AdminManager.tsx): approve,
    reject, edit and delete accounts, and filter the list by status.

    The list is loaded from browser storage (`imatoms_users`) and every
    change writes the whole list back; `Panel.stored` is what storage holds.
    The browser's confirmation dialog is the input `confirmed`. */
module Admin {
  import opened Wrappers
  import opened Types
  import Seqs
  import Login

  /** The list on screen and the list in storage. */
  datatype Panel = Panel(users: seq<User>, stored: Option<seq<User>>)

  /** The sidebar filter: every account, or only those with one status. */
  datatype StatusFilter = All | Only(status: UserStatus)

  /** The buttons a row of the table can show. */
  datatype Action = ApproveAction | RejectAction | EditAction | DeleteAction

  /** Mounting: the stored list, or an empty one when nothing is stored. */
  function Open(stored: Option<seq<User>>): (p: Panel)
    ensures p.stored == stored
    ensures stored.Some? ==> p.users == stored.value
    ensures stored.None? ==> p.users == []
  {
    Panel(stored.GetOr([]), stored)
  }

  /** The list on screen is exactly the list in storage. */
  predicate Synced(p: Panel) {
    p.stored == Some(p.users)
  }

  /** `updateUsers`: show the new list and store it. Remounting the screen
      from what was stored shows the same list again. */
  function Commit(users: seq<User>): (p: Panel)
    ensures p.users == users && Synced(p)
    ensures Open(p.stored) == p
  {
    Panel(users, Some(users))
  }

  /** `handleStatusChange`: every account with the id gets the status. */
  function SetStatus(users: seq<User>, id: string, status: UserStatus): (r: seq<User>)
    ensures |r| == |users|
    ensures forall i :: 0 <= i < |r| ==>
              if users[i].id == id then r[i] == users[i].(status := status) else r[i] == users[i]
  {
    seq(|users|, i requires 0 <= i < |users| =>
      if users[i].id == id then users[i].(status := status) else users[i])
  }

  function HasId(id: string): User -> bool {
    (u: User) => u.id == id
  }

  function LacksId(id: string): User -> bool {
    (u: User) => u.id != id
  }

  /** `handleDelete`: once confirmed, every account with the id is removed;
      the others stay, in order. */
  function Delete(users: seq<User>, id: string, confirmed: bool): (r: seq<User>)
    ensures !confirmed ==> r == users
    ensures confirmed ==> |r| == |users| - Seqs.Count(users, HasId(id))
    ensures confirmed ==> forall i :: 0 <= i < |r| ==> r[i].id != id && r[i] in users
    ensures confirmed ==> forall i :: 0 <= i < |users| && users[i].id != id ==> users[i] in r
  {
    if confirmed then
      Seqs.CountComplement(users, HasId(id), LacksId(id));
      Seqs.Filter(users, LacksId(id))
    else users
  }

  /** Deleting keeps the survivors in their original order: it distributes
      over any split of the list. */
  lemma DeleteKeepsOrder(a: seq<User>, b: seq<User>, id: string)
    ensures Delete(a + b, id, true) == Delete(a, id, true) + Delete(b, id, true)
  {
    Seqs.FilterConcat(a, b, LacksId(id));
  }

  /** `saveEdit`: with no account being edited nothing happens; otherwise
      every account with the edited id is replaced by the edited record. */
  function SaveEdit(users: seq<User>, editing: Option<User>): (r: seq<User>)
    ensures editing.None? ==> r == users
    ensures |r| == |users|
    ensures editing.Some? ==> forall i :: 0 <= i < |r| ==>
              if users[i].id == editing.value.id then r[i] == editing.value else r[i] == users[i]
  {
    match editing
    case None => users
    case Some(e) =>
      seq(|users|, i requires 0 <= i < |users| => if users[i].id == e.id then e else users[i])
  }

  /** The changes the screen can request. */
  datatype Request =
    | ChangeStatus(id: string, status: UserStatus)
    | Remove(id: string, confirmed: bool)
    | SaveEditing(editing: Option<User>)

  /** One request on the panel: an unconfirmed deletion, or saving with no
      account being edited, writes nothing; every other request shows the
      changed list and writes it back. */
  function Handle(p: Panel, req: Request): (r: Panel)
    ensures r == p || Synced(r)
    ensures Synced(p) ==> Synced(r)
    ensures req.ChangeStatus? ==> Synced(r) && r.users == SetStatus(p.users, req.id, req.status)
    ensures req.Remove? ==> if req.confirmed then Synced(r) && r.users == Delete(p.users, req.id, true) else r == p
    ensures req.SaveEditing? ==>
              if req.editing.Some? then Synced(r) && r.users == SaveEdit(p.users, req.editing) else r == p
  {
    match req
    case ChangeStatus(id, status) => Commit(SetStatus(p.users, id, status))
    case Remove(id, confirmed) => if confirmed then Commit(Delete(p.users, id, true)) else p
    case SaveEditing(editing) => if editing.Some? then Commit(SaveEdit(p.users, editing)) else p
  }

  /** The panel after mounting on `stored` and handling `reqs` in order. */
  function Session(stored: Option<seq<User>>, reqs: seq<Request>): (p: Panel)
    ensures p == Open(stored) || Synced(p)
    ensures stored.Some? ==> Synced(p)
    ensures Synced(p) ==> Open(p.stored) == p
  {
    if |reqs| == 0 then Open(stored)
    else Handle(Session(stored, reqs[..|reqs| - 1]), reqs[|reqs| - 1])
  }

  function HasStatus(s: UserStatus): User -> bool {
    (u: User) => u.status == s
  }

  /** The rows the table shows under a filter. */
  function Visible(users: seq<User>, f: StatusFilter): (r: seq<User>)
    ensures f.All? ==> r == users
    ensures f.Only? ==> && |r| == Seqs.Count(users, HasStatus(f.status))
                        && (forall i :: 0 <= i < |r| ==> r[i] in users && r[i].status == f.status)
                        && (forall i :: 0 <= i < |users| && users[i].status == f.status ==> users[i] in r)
  {
    match f
    case All => users
    case Only(s) => Seqs.Filter(users, HasStatus(s))
  }

  /** Filtering keeps the shown rows in their original order: it distributes
      over any split of the list. */
  lemma VisibleKeepsOrder(a: seq<User>, b: seq<User>, f: StatusFilter)
    ensures Visible(a + b, f) == Visible(a, f) + Visible(b, f)
  {
    if f.Only? {
      Seqs.FilterConcat(a, b, HasStatus(f.status));
    }
  }

  /** The three status filters between them show every account once. */
  lemma {:induction false} FiltersPartition(users: seq<User>)
    ensures |Visible(users, Only(UserStatus.Pending))| + |Visible(users, Only(Approved))|
            + |Visible(users, Only(Rejected))| == |Visible(users, All)|
    decreases |users|
  {
    if |users| > 0 {
      FiltersPartition(users[1..]);
      var u, rest := users[0], users[1..];
      assert |Visible(users, Only(UserStatus.Pending))|
             == (if u.status == UserStatus.Pending then 1 else 0) + |Visible(rest, Only(UserStatus.Pending))|;
      assert |Visible(users, Only(Approved))|
             == (if u.status == Approved then 1 else 0) + |Visible(rest, Only(Approved))|;
      assert |Visible(users, Only(Rejected))|
             == (if u.status == Rejected then 1 else 0) + |Visible(rest, Only(Rejected))|;
    }
  }

  /** The "Pending" counter in the header: as many as the Pending filter shows. */
  function PendingCount(users: seq<User>): (n: nat)
    ensures n == |Visible(users, Only(UserStatus.Pending))|
    ensures n <= |users|
  {
    Seqs.Count(users, HasStatus(UserStatus.Pending))
  }

  /** The buttons a row shows: none for the account named "admin"; otherwise
      Approve unless already approved, Reject unless already rejected, and
      always Edit and Delete. */
  function Offered(u: User): (r: set<Action>)
    ensures u.username == "admin" ==> r == {}
    ensures u.username != "admin" ==> EditAction in r && DeleteAction in r
    ensures ApproveAction in r <==> u.username != "admin" && u.status != Approved
    ensures RejectAction in r <==> u.username != "admin" && u.status != Rejected
  {
    if u.username == "admin" then {}
    else
      (if u.status != Approved then {ApproveAction} else {})
      + (if u.status != Rejected then {RejectAction} else {})
      + {EditAction, DeleteAction}
  }

  /** A pending account can be approved or rejected; a decided one can only
      be moved to the other decision. The account named "admin" offers no
      action at all. */
  lemma DecisionsOffered(u: User)
    requires u.username != "admin"
    ensures u.status == UserStatus.Pending ==> |Offered(u)| == 4
    ensures u.status != UserStatus.Pending ==> |Offered(u)| == 3
  {
    var r := Offered(u);
    if u.status == UserStatus.Pending {
      assert r == {ApproveAction, RejectAction, EditAction, DeleteAction};
    } else if u.status == Approved {
      assert r == {RejectAction, EditAction, DeleteAction};
    } else {
      assert r == {ApproveAction, EditAction, DeleteAction};
    }
  }

  /** No two accounts share an id. */
  predicate UniqueIds(users: seq<User>) {
    forall i, j :: 0 <= i < j < |users| ==> users[i].id != users[j].id
  }

  /** Approving or rejecting a pending account, ids being unique, lowers the
      pending counter by one. */
  lemma DecidingLowersPending(users: seq<User>, k: nat, status: UserStatus)
    requires UniqueIds(users) && k < |users|
    requires users[k].status == UserStatus.Pending && status != UserStatus.Pending
    ensures PendingCount(SetStatus(users, users[k].id, status)) == PendingCount(users) - 1
  {
    var r := SetStatus(users, users[k].id, status);
    assert r == users[k := r[k]];
    Seqs.CountReplace(users, k, r[k], HasStatus(UserStatus.Pending));
  }

  /** Approval is what lets a registered account in: once an account with a
      unique name and a password is approved, signing in with its
      credentials succeeds. */
  lemma ApprovalEnablesSignIn(users: seq<User>, k: nat, password: string, now: Millis)
    requires Login.UniqueUsernames(users) && k < |users|
    requires users[k].password == Some(password)
    ensures var approved := Commit(SetStatus(users, users[k].id, Approved));
            var f := Login.Form(Login.SignIn, users[k].username, password, "", "ViMUT");
            Login.Submit(approved.stored, f, now).outcome == Login.LoggedIn(users[k].(status := Approved))
  {
    var approved := SetStatus(users, users[k].id, Approved);
    var all := Login.EnsureAdmin(approved);
    assert all[..|approved|] == approved;
    assert all[k] == users[k].(status := Approved);
    assert forall j :: 0 <= j < |approved| && j != k ==> all[j].username != users[k].username by {
      forall j | 0 <= j < |approved| && j != k
        ensures all[j].username != users[k].username
      {
        assert all[j] == approved[j];
        assert approved[j].username == users[j].username;
      }
    }
    assert Login.FindUser(all, users[k].username, password) == Some(k);
  }

  /** An edit keeps usernames unique when ids are unique and the edited
      record's name is not used by any other account: keeping the name, or
      picking an unused one. */
  lemma SaveEditKeepsUniqueNames(users: seq<User>, e: User)
    requires UniqueIds(users) && Login.UniqueUsernames(users)
    requires forall i :: 0 <= i < |users| && users[i].id != e.id ==> users[i].username != e.username
    ensures Login.UniqueUsernames(SaveEdit(users, Some(e)))
  {
    var r := SaveEdit(users, Some(e));
    forall i, j | 0 <= i < j < |r|
      ensures r[i].username != r[j].username
    {
      if users[i].id == e.id {
        assert users[j].id != e.id;
      } else if users[j].id == e.id {
        assert users[i].id != e.id;
      }
    }
  }

  /** An edit is not checked against other accounts: renaming one account to
      another's name stores two accounts with that name. */
  lemma SaveEditMayDuplicateName(bob: User, carol: User)
    requires bob.username == "bob" && carol.username == "carol" && bob.id != carol.id
    ensures Login.UniqueUsernames([bob, carol])
    ensures !Login.UniqueUsernames(SaveEdit([bob, carol], Some(carol.(username := "bob"))))
  {
    var r := SaveEdit([bob, carol], Some(carol.(username := "bob")));
    assert r[0] == bob && r[1] == carol.(username := "bob");
  }
}

=== FILE: analytics.dfy ===
/** The threshold-alert ledger of the AI Analytics panel
    (components/AIAnalytics.tsx): the threshold registry with its default set,
    the per-tick classification of samples, the alert ledger with its
    60-second de-duplication, the password-gated clear, corrections and
    per-field threshold edits.

    The random drift of the simulated samples is not modelled: a tick takes
    one sample value per config as input, and the clock as `now`. */
module Analytics {
  import opened Wrappers
  import opened Types
  import Text
  import Seqs

  /** An unresolved alert of a config suppresses new ones for this long. */
  const DedupWindow: int := 60000

  /** The shared secret that unlocks clearing the ledger. */
  const ClearPassword: string := "Clear123"

  // ---------------------------------------------------------------------------
  // Threshold registry

  /** No two configs share an id. */
  predicate DistinctIds(configs: seq<AnalyticsConfig>) {
    forall i, j :: 0 <= i < j < |configs| ==> configs[i].id != configs[j].id
  }

  /** The AppSheet pages the default configs link to. */
  const XrayLink := "https://www.appsheet.com/start/0788eed4-99c2-4cf0-9dca-26d6f8cc077f"
  const EnergyLink := "https://www.appsheet.com/start/629bda75-2fe2-48a0-b7e4-2834750d7483"
  const VsdLink := "https://www.appsheet.com/start/7cedd341-6b86-41a3-97cc-cb7ce5c995d5"
  const Co2Link := "https://www.appsheet.com/start/6e3db8a9-a3f0-4b54-aad4-f07424fbcf9e"
  const ChillerLink := "https://www.appsheet.com/start/0682c57a-71aa-4b05-8349-ae5e148fdcc8"

  /** The built-in set used when nothing is stored yet. */
  function DefaultConfigs(): (r: seq<AnalyticsConfig>)
    ensures |r| == 5
    ensures DistinctIds(r)
    ensures forall i :: 0 <= i < |r| ==> r[i].WellOrdered()
  {
    [ AnalyticsConfig("xray-temp", "X-RAY Temp Monitoring", "°C", 20.0, 28.0, 24.0, XrayLink),
      AnalyticsConfig("daily-energy", "Daily Energy Usage", "kW", 200.0, 1000.0, 500.0, EnergyLink),
      AnalyticsConfig("vsd-freq", "VSD Frequency Monitor", "Hz", 20.0, 55.0, 50.0, VsdLink),
      AnalyticsConfig("iaq-co2", "IAQ CO2 Level", "ppm", 350.0, 1000.0, 600.0, Co2Link),
      AnalyticsConfig("chiller-eff", "Chiller Efficiency", "kW/TR", 0.5, 0.9, 0.7, ChillerLink) ]
  }

  /** The configs in memory after the panel mounts, and what storage then holds. */
  datatype Loaded = Loaded(configs: seq<AnalyticsConfig>, stored: Option<seq<AnalyticsConfig>>)

  /** Mount-time load: stored configs are used as they are; with nothing stored
      the defaults are used and written back. */
  function LoadConfigs(stored: Option<seq<AnalyticsConfig>>): (r: Loaded)
    ensures stored.None? ==> r.configs == DefaultConfigs()
    ensures stored.None? ==> |r.configs| == 5 && DistinctIds(r.configs)
    ensures stored.None? ==> forall i :: 0 <= i < |r.configs| ==> r.configs[i].WellOrdered()
    ensures stored.Some? ==> r.configs == stored.value
    ensures r.stored == Some(r.configs)
  {
    match stored
    case Some(cs) => Loaded(cs, stored)
    case None => Loaded(DefaultConfigs(), Some(DefaultConfigs()))
  }

  /** Loading again in a later session yields the same configs and leaves
      storage as it was: the first load is a fixed point. */
  lemma LoadIsStable(stored: Option<seq<AnalyticsConfig>>)
    ensures LoadConfigs(LoadConfigs(stored).stored) == LoadConfigs(stored)
  {
  }

  /** The numeric fields an operator may edit. */
  datatype ConfigField = MinField | MaxField | StandardField

  function FieldValue(c: AnalyticsConfig, f: ConfigField): real {
    match f
    case MinField => c.min
    case MaxField => c.max
    case StandardField => c.standard
  }

  /** The non-numeric fields of two configs agree. */
  predicate SameLabels(a: AnalyticsConfig, b: AnalyticsConfig) {
    a.id == b.id && a.name == b.name && a.unit == b.unit && a.appUrl == b.appUrl
  }

  /** `updateConfig(id, field, value)`: set one numeric field of every config
      with the given id. The ordering `min < standard < max` is not checked. */
  function UpdateConfig(configs: seq<AnalyticsConfig>, id: string, f: ConfigField, v: real)
    : (r: seq<AnalyticsConfig>)
    ensures |r| == |configs|
    ensures forall i :: 0 <= i < |r| ==> SameLabels(r[i], configs[i])
    ensures forall i :: 0 <= i < |r| && configs[i].id != id ==> r[i] == configs[i]
    ensures forall i :: 0 <= i < |r| && configs[i].id == id ==> FieldValue(r[i], f) == v
    ensures forall i, g :: 0 <= i < |r| && g != f ==> FieldValue(r[i], g) == FieldValue(configs[i], g)
  {
    seq(|configs|, i requires 0 <= i < |configs| =>
      var c := configs[i];
      if c.id != id then c
      else match f
        case MinField => c.(min := v)
        case MaxField => c.(max := v)
        case StandardField => c.(standard := v))
  }

  /** Writing back the value a field had undoes an edit (ids distinct). */
  lemma UpdateConfigUndo(configs: seq<AnalyticsConfig>, k: nat, f: ConfigField, v: real)
    requires DistinctIds(configs) && k < |configs|
    ensures UpdateConfig(UpdateConfig(configs, configs[k].id, f, v), configs[k].id, f, FieldValue(configs[k], f))
            == configs
  {
    var r := UpdateConfig(UpdateConfig(configs, configs[k].id, f, v), configs[k].id, f, FieldValue(configs[k], f));
    assert forall i :: 0 <= i < |r| ==> r[i] == configs[i];
  }

  /** An edit can leave a config whose nominal value is outside its bounds:
      raising the X-RAY minimum to 30 is accepted although the standard is 24. */
  lemma UpdateConfigSkipsValidation()
    ensures DefaultConfigs()[0].WellOrdered()
    ensures !UpdateConfig(DefaultConfigs(), "xray-temp", MinField, 30.0)[0].WellOrdered()
  {
  }

  // ---------------------------------------------------------------------------
  // Sampling

  /** A sample is out of bounds when it lies outside `[min, max]`. */
  predicate IsAlert(c: AnalyticsConfig, value: real) {
    value > c.max || value < c.min
  }

  /** The signal a tick records for one config. */
  function Classify(c: AnalyticsConfig, value: real, now: Millis): (s: AnalyticsSignal)
    ensures s.configId == c.id && s.currentValue == value && s.timestamp == now
    ensures s.status == Alert <==> !(c.min <= value <= c.max)
  {
    AnalyticsSignal(c.id, value, if IsAlert(c, value) then Alert else Normal, now)
  }

  /** The signal snapshot after the first `n` configs of a tick have been
      sampled: the `Record<string, AnalyticsSignal>` keyed by config id, a
      later config overwriting an earlier one with the same id. */
  function SignalsAfter(configs: seq<AnalyticsConfig>, values: seq<real>, now: Millis, n: nat)
    : map<string, AnalyticsSignal>
    requires |values| == |configs| && n <= |configs|
  {
    if n == 0 then map[]
    else SignalsAfter(configs, values, now, n - 1)[configs[n - 1].id := Classify(configs[n - 1], values[n - 1], now)]
  }

  /** Every config sampled so far has an entry, and nothing else does. */
  lemma {:induction false} SignalsCover(configs: seq<AnalyticsConfig>, values: seq<real>, now: Millis, n: nat)
    requires |values| == |configs| && n <= |configs|
    ensures SignalsAfter(configs, values, now, n).Keys == set i | 0 <= i < n :: configs[i].id
  {
    if n > 0 {
      SignalsCover(configs, values, now, n - 1);
      var prev := set i | 0 <= i < n - 1 :: configs[i].id;
      var cur := set i | 0 <= i < n :: configs[i].id;
      assert cur == prev + {configs[n - 1].id};
    }
  }

  /** The entry under a config's id is that config's signal unless a later
      config with the same id overwrote it. */
  lemma {:induction false} SignalsLastWins(configs: seq<AnalyticsConfig>, values: seq<real>, now: Millis,
                                           n: nat, i: nat)
    requires |values| == |configs| && i < n <= |configs|
    requires forall j :: i < j < n ==> configs[j].id != configs[i].id
    ensures configs[i].id in SignalsAfter(configs, values, now, n)
    ensures SignalsAfter(configs, values, now, n)[configs[i].id] == Classify(configs[i], values[i], now)
  {
    if i < n - 1 {
      SignalsLastWins(configs, values, now, n - 1, i);
    }
  }

  // ---------------------------------------------------------------------------
  // Alert ledger

  /** `alert-${Date.now()}`: every alert raised at the same millisecond gets
      the same id. */
  function AlertId(now: Millis): string {
    "alert-" + Text.Decimal(now)
  }

  /** The ledger already holds an open alert of this config raised less than a
      minute before `now`. */
  predicate AlreadyLogged(history: seq<AnalyticsAlertHistory>, configId: string, now: Millis) {
    exists h :: h in history && h.configId == configId && IsOpen(h) && now - h.timestamp < DedupWindow
  }

  /** The record raised for an out-of-bounds sample: the MAX bound when the
      sample is above the maximum, otherwise the MIN bound. */
  function NewAlert(c: AnalyticsConfig, value: real, now: Millis): (a: AnalyticsAlertHistory)
    ensures a.id == AlertId(now) && a.configId == c.id && a.signalName == c.name
    ensures a.value == value && a.timestamp == now
    ensures IsOpen(a) && a.correction.None?
    ensures a.thresholdType == Max <==> value > c.max
    ensures a.thresholdValue == if value > c.max then c.max else c.min
    ensures IsAlert(c, value) ==>
              (a.thresholdType == Max && value > a.thresholdValue) ||
              (a.thresholdType == Min && value < a.thresholdValue)
  {
    AnalyticsAlertHistory(
      AlertId(now), c.id, c.name, value,
      if value > c.max then Max else Min,
      if value > c.max then c.max else c.min,
      now, None, None)
  }

  /** Config `i` raises a new alert in a tick whose ledger started as `h0`. */
  predicate Fresh(configs: seq<AnalyticsConfig>, values: seq<real>, h0: seq<AnalyticsAlertHistory>,
                  now: Millis, i: int)
    requires |values| == |configs|
  {
    0 <= i < |configs| && IsAlert(configs[i], values[i]) && !AlreadyLogged(h0, configs[i].id, now)
  }

  function FreshAt(configs: seq<AnalyticsConfig>, values: seq<real>, h0: seq<AnalyticsAlertHistory>,
                   now: Millis): nat -> bool
    requires |values| == |configs|
  {
    (i: nat) => Fresh(configs, values, h0, now, i)
  }

  function AlertAt(configs: seq<AnalyticsConfig>, values: seq<real>): nat -> bool
    requires |values| == |configs|
  {
    (i: nat) => i < |configs| && IsAlert(configs[i], values[i])
  }

  /** The ledger after the first `n` configs of a tick. Each config's
      duplicate check reads the ledger as it was when the tick began (`h0`),
      while each new alert is prepended to the ledger as it stands, so the
      alerts of one tick precede the old ledger, the last config's first. */
  function LedgerAfter(configs: seq<AnalyticsConfig>, values: seq<real>,
                       h0: seq<AnalyticsAlertHistory>, now: Millis, n: nat)
    : seq<AnalyticsAlertHistory>
    requires |values| == |configs| && n <= |configs|
  {
    if n == 0 then h0
    else
      var prev := LedgerAfter(configs, values, h0, now, n - 1);
      if Fresh(configs, values, h0, now, n - 1) then [NewAlert(configs[n - 1], values[n - 1], now)] + prev
      else prev
  }

  /** A tick only prepends: the old ledger follows, unchanged and in order,
      after one new record per fresh config. */
  lemma {:induction false} LedgerKeepsOld(configs: seq<AnalyticsConfig>, values: seq<real>,
                                          h0: seq<AnalyticsAlertHistory>, now: Millis, n: nat)
    requires |values| == |configs| && n <= |configs|
    ensures var r := LedgerAfter(configs, values, h0, now, n);
            && |r| == |h0| + Seqs.IndexCount(n, FreshAt(configs, values, h0, now))
            && r[|r| - |h0|..] == h0
  {
    if n > 0 {
      LedgerKeepsOld(configs, values, h0, now, n - 1);
    }
  }

  /** Every record a tick adds is the alert of a fresh config. */
  lemma {:induction false} LedgerNewAreFresh(configs: seq<AnalyticsConfig>, values: seq<real>,
                                             h0: seq<AnalyticsAlertHistory>, now: Millis, n: nat, k: nat)
    requires |values| == |configs| && n <= |configs|
    requires k < |LedgerAfter(configs, values, h0, now, n)| - |h0|
    ensures exists i :: i < n && Fresh(configs, values, h0, now, i) &&
              LedgerAfter(configs, values, h0, now, n)[k] == NewAlert(configs[i], values[i], now)
  {
    LedgerKeepsOld(configs, values, h0, now, n);
    if Fresh(configs, values, h0, now, n - 1) {
      if k > 0 {
        LedgerNewAreFresh(configs, values, h0, now, n - 1, k - 1);
      }
    } else {
      LedgerNewAreFresh(configs, values, h0, now, n - 1, k);
    }
  }

  /** Every fresh config gets its record among the new ones. */
  lemma {:induction false} LedgerFreshAreNew(configs: seq<AnalyticsConfig>, values: seq<real>,
                                             h0: seq<AnalyticsAlertHistory>, now: Millis, n: nat, i: nat)
    requires |values| == |configs| && i < n <= |configs|
    requires Fresh(configs, values, h0, now, i)
    ensures var r := LedgerAfter(configs, values, h0, now, n);
            |r| >= |h0| && NewAlert(configs[i], values[i], now) in r[..|r| - |h0|]
  {
    LedgerKeepsOld(configs, values, h0, now, n);
    LedgerKeepsOld(configs, values, h0, now, n - 1);
    var prev := LedgerAfter(configs, values, h0, now, n - 1);
    var r := LedgerAfter(configs, values, h0, now, n);
    if i < n - 1 {
      LedgerFreshAreNew(configs, values, h0, now, n - 1, i);
      if Fresh(configs, values, h0, now, n - 1) {
        assert r[..|r| - |h0|] == [r[0]] + prev[..|prev| - |h0|];
      } else {
        assert r == prev;
      }
    } else {
      assert r[0] == NewAlert(configs[i], values[i], now);
      assert r[..|r| - |h0|][0] == r[0];
    }
  }

  /** What one tick produces: the signal snapshot, the number of alerting
      configs, and the new ledger. */
  datatype TickResult = TickResult(
    signals: map<string, AnalyticsSignal>,
    activeAlertCount: nat,
    history: seq<AnalyticsAlertHistory>)

  /** One run of the 3-second sampling interval over `configs`, with
      `values[i]` the sample drawn for `configs[i]`. */
  function Tick(configs: seq<AnalyticsConfig>, values: seq<real>,
                history: seq<AnalyticsAlertHistory>, now: Millis)
    : (r: TickResult)
    requires |values| == |configs|
    ensures r.activeAlertCount == |set i: nat | i < |configs| && IsAlert(configs[i], values[i])|
    ensures r.signals.Keys == set i | 0 <= i < |configs| :: configs[i].id
    ensures DistinctIds(configs) ==>
              forall i :: 0 <= i < |configs| ==>
                (r.signals[configs[i].id].status == Alert <==> IsAlert(configs[i], values[i]))
    ensures |r.history| >= |history| && r.history[|r.history| - |history|..] == history
    ensures |r.history| - |history| == |set i: nat | i < |configs| && Fresh(configs, values, history, now, i)|
    ensures forall k :: 0 <= k < |r.history| - |history| ==>
              exists i :: Fresh(configs, values, history, now, i) && r.history[k] == NewAlert(configs[i], values[i], now)
    ensures forall i :: Fresh(configs, values, history, now, i) ==>
              NewAlert(configs[i], values[i], now) in r.history[..|r.history| - |history|]
  {
    TickCount(configs, values);
    TickSignals(configs, values, now);
    TickLedger(configs, values, history, now);
    var n := |configs|;
    TickResult(SignalsAfter(configs, values, now, n), Seqs.IndexCount(n, AlertAt(configs, values)),
               LedgerAfter(configs, values, history, now, n))
  }

  /** The number of alerting configs is the size of the set of their indices. */
  lemma TickCount(configs: seq<AnalyticsConfig>, values: seq<real>)
    requires |values| == |configs|
    ensures Seqs.IndexCount(|configs|, AlertAt(configs, values))
            == |set i: nat | i < |configs| && IsAlert(configs[i], values[i])|
  {
    var n := |configs|;
    Seqs.IndexCountIsCardinality(n, AlertAt(configs, values));
    assert (set i: nat | i < n && AlertAt(configs, values)(i)) == set i: nat | i < n && IsAlert(configs[i], values[i]);
  }

  /** One snapshot entry per config id; with distinct ids each entry's status
      is its config's classification. */
  lemma TickSignals(configs: seq<AnalyticsConfig>, values: seq<real>, now: Millis)
    requires |values| == |configs|
    ensures SignalsAfter(configs, values, now, |configs|).Keys == set i | 0 <= i < |configs| :: configs[i].id
    ensures DistinctIds(configs) ==>
              forall i :: 0 <= i < |configs| ==>
                (SignalsAfter(configs, values, now, |configs|)[configs[i].id].status == Alert
                 <==> IsAlert(configs[i], values[i]))
  {
    var n := |configs|;
    SignalsCover(configs, values, now, n);
    if DistinctIds(configs) {
      forall i | 0 <= i < n
        ensures SignalsAfter(configs, values, now, n)[configs[i].id].status == Alert <==> IsAlert(configs[i], values[i])
      {
        SignalsLastWins(configs, values, now, n, i);
      }
    }
  }

  /** The ledger a tick leaves: one new record per fresh config ahead of the
      old ledger. */
  lemma TickLedger(configs: seq<AnalyticsConfig>, values: seq<real>,
                   history: seq<AnalyticsAlertHistory>, now: Millis)
    requires |values| == |configs|
    ensures var h := LedgerAfter(configs, values, history, now, |configs|);
            && |h| >= |history| && h[|h| - |history|..] == history
            && |h| - |history| == |set i: nat | i < |configs| && Fresh(configs, values, history, now, i)|
            && (forall k :: 0 <= k < |h| - |history| ==>
                  exists i :: Fresh(configs, values, history, now, i) && h[k] == NewAlert(configs[i], values[i], now))
            && (forall i :: Fresh(configs, values, history, now, i) ==>
                  NewAlert(configs[i], values[i], now) in h[..|h| - |history|])
  {
    var n := |configs|;
    Seqs.IndexCountIsCardinality(n, FreshAt(configs, values, history, now));
    assert (set i: nat | i < n && FreshAt(configs, values, history, now)(i))
        == set i: nat | i < n && Fresh(configs, values, history, now, i);
    LedgerKeepsOld(configs, values, history, now, n);
    var h := LedgerAfter(configs, values, history, now, n);
    forall k | 0 <= k < |h| - |history|
      ensures exists i :: Fresh(configs, values, history, now, i) && h[k] == NewAlert(configs[i], values[i], now)
    {
      LedgerNewAreFresh(configs, values, history, now, n, k);
    }
    forall i | Fresh(configs, values, history, now, i)
      ensures NewAlert(configs[i], values[i], now) in h[..|h| - |history|]
    {
      LedgerFreshAreNew(configs, values, history, now, n, i);
    }
  }

  /** The ledger step for a single out-of-bounds sample: nothing is added when
      an open alert of the config is less than a minute old; otherwise one
      record is prepended. */
  function RecordIfNew(history: seq<AnalyticsAlertHistory>, c: AnalyticsConfig, value: real, now: Millis)
    : (r: seq<AnalyticsAlertHistory>)
    ensures AlreadyLogged(history, c.id, now) || !IsAlert(c, value) ==> r == history
    ensures !AlreadyLogged(history, c.id, now) && IsAlert(c, value) ==>
              |r| == |history| + 1 && r[0] == NewAlert(c, value, now) && r[1..] == history
  {
    assert LedgerAfter([c], [value], history, now, 0) == history;
    Tick([c], [value], history, now).history
  }

  /** Two out-of-bounds samples of one config less than a minute apart leave a
      single new record. */
  lemma DedupWithinWindow(history: seq<AnalyticsAlertHistory>, c: AnalyticsConfig,
                          v1: real, t1: Millis, v2: real, t2: Millis)
    requires IsAlert(c, v1) && IsAlert(c, v2)
    requires t1 <= t2 < t1 + DedupWindow
    ensures |RecordIfNew(RecordIfNew(history, c, v1, t1), c, v2, t2)| <= |history| + 1
  {
    var h1 := RecordIfNew(history, c, v1, t1);
    if !AlreadyLogged(history, c.id, t1) {
      assert h1[0] in h1;
      assert AlreadyLogged(h1, c.id, t2);
    }
  }

  /** Two out-of-bounds samples of one config at least a minute apart, with no
      recent open alert before the first, leave two new records. */
  lemma NewRecordAfterWindow(history: seq<AnalyticsAlertHistory>, c: AnalyticsConfig,
                             v1: real, t1: Millis, v2: real, t2: Millis)
    requires IsAlert(c, v1) && IsAlert(c, v2)
    requires !AlreadyLogged(history, c.id, t1)
    requires t2 >= t1 + DedupWindow
    ensures |RecordIfNew(RecordIfNew(history, c, v1, t1), c, v2, t2)| == |history| + 2
  {
    var h1 := RecordIfNew(history, c, v1, t1);
    forall h | h in h1 && h.configId == c.id && IsOpen(h)
      ensures t2 - h.timestamp >= DedupWindow
    {
      if h != h1[0] {
        assert h in h1[1..];
      }
    }
  }

  // ---------------------------------------------------------------------------
  // Clearing and correcting

  datatype ClearOutcome = Cleared | Refused(message: string)

  /** `handleClearHistory`: the right password empties the ledger; any other
      leaves it as it was and reports the refusal. */
  function ClearHistory(history: seq<AnalyticsAlertHistory>, password: string)
    : (r: (seq<AnalyticsAlertHistory>, ClearOutcome))
    ensures r.1.Cleared? <==> password == ClearPassword
    ensures r.1.Cleared? ==> r.0 == []
    ensures r.1.Refused? ==> r.0 == history && r.1.message == "Incorrect Admin Password"
  {
    if password == ClearPassword then ([], Cleared) else (history, Refused("Incorrect Admin Password"))
  }

  /** Mark every record with the given id as corrected at `now`. Records that
      are already resolved are overwritten as well. */
  function Correct(history: seq<AnalyticsAlertHistory>, id: string, note: string, now: Millis)
    : (r: seq<AnalyticsAlertHistory>)
    ensures |r| == |history|
    ensures forall i :: 0 <= i < |r| && history[i].id != id ==> r[i] == history[i]
    ensures forall i :: 0 <= i < |r| && history[i].id == id ==>
              r[i].correction == Some(note) && r[i].resolvedAt == Some(now) &&
              r[i].(correction := None, resolvedAt := None) == history[i].(correction := None, resolvedAt := None)
  {
    seq(|history|, i requires 0 <= i < |history| =>
      if history[i].id == id then history[i].(correction := Some(note), resolvedAt := Some(now))
      else history[i])
  }

  /** `saveCorrection`: with no record selected nothing happens; otherwise
      every record sharing the selected record's id is corrected. */
  function SaveCorrection(history: seq<AnalyticsAlertHistory>, selected: Option<AnalyticsAlertHistory>,
                          note: string, now: Millis)
    : (r: seq<AnalyticsAlertHistory>)
    ensures selected.None? ==> r == history
    ensures |r| == |history|
    ensures selected.Some? ==> forall i :: 0 <= i < |r| && history[i].id != selected.value.id ==>
              r[i] == history[i]
    ensures selected.Some? ==> forall i :: 0 <= i < |r| && history[i].id == selected.value.id ==>
              && !IsOpen(r[i]) && r[i].resolvedAt == Some(now) && r[i].correction == Some(note)
              && r[i].(correction := None, resolvedAt := None) == history[i].(correction := None, resolvedAt := None)
  {
    match selected
    case None => history
    case Some(a) => Correct(history, a.id, note, now)
  }

  /** A second correction replaces the first one's note and time. */
  lemma CorrectOverwrites(history: seq<AnalyticsAlertHistory>, id: string,
                          n1: string, t1: Millis, n2: string, t2: Millis)
    ensures Correct(Correct(history, id, n1, t1), id, n2, t2) == Correct(history, id, n2, t2)
  {
    var a := Correct(Correct(history, id, n1, t1), id, n2, t2);
    var b := Correct(history, id, n2, t2);
    assert forall i :: 0 <= i < |a| ==> a[i] == b[i];
  }

  /** A correction closes exactly the open records carrying its id. */
  lemma {:induction false} CorrectOpenCount(history: seq<AnalyticsAlertHistory>, id: string, note: string, now: Millis)
    ensures Seqs.Count(Correct(history, id, note, now), IsOpen)
            == Seqs.Count(history, IsOpen) - Seqs.Count(history, (h: AnalyticsAlertHistory) => IsOpen(h) && h.id == id)
    decreases |history|
  {
    if |history| > 0 {
      var r := Correct(history, id, note, now);
      assert r[1..] == Correct(history[1..], id, note, now);
      CorrectOpenCount(history[1..], id, note, now);
    }
  }

  /** Alert ids can collide: two configs out of bounds in one tick, raised in
      the same millisecond, get records with the same id, so correcting either
      record resolves both. */
  lemma SameTickAlertsShareId()
    ensures var h := Tick(DefaultConfigs()[..2], [30.0, 1200.0], [], 1000).history;
            && |h| == 2
            && h[0].configId != h[1].configId
            && h[0].id == h[1].id
            && var fixed := SaveCorrection(h, Some(h[0]), "X-RAY room and energy meter inspected", 2000);
               !IsOpen(fixed[0]) && !IsOpen(fixed[1])
  {
    var cs := DefaultConfigs()[..2];
    var vs := [30.0, 1200.0];
    assert Fresh(cs, vs, [], 1000, 0) && Fresh(cs, vs, [], 1000, 1);
    var h := Tick(cs, vs, [], 1000).history;
    assert LedgerAfter(cs, vs, [], 1000, 1) == [NewAlert(cs[0], 30.0, 1000)];
    assert h == [NewAlert(cs[1], 1200.0, 1000), NewAlert(cs[0], 30.0, 1000)];
  }

  /** Forcing the X-RAY sample (the first default config) to `max + 1`: one
      alerting config, and one new MAX record carrying the crossed bound. */
  lemma DefaultScenario(now: Millis)
    ensures var cs := DefaultConfigs();
            var r := Tick(cs, [29.0, 500.0, 50.0, 600.0, 0.7], [], now);
            && r.activeAlertCount == 1
            && |r.history| == 1
            && r.history[0].configId == "xray-temp"
            && r.history[0].thresholdType == Max && r.history[0].thresholdValue == 28.0
  {
    var cs := DefaultConfigs();
    var vs := [29.0, 500.0, 50.0, 600.0, 0.7];
    assert (set i: nat | i < |cs| && IsAlert(cs[i], vs[i])) == {0};
    assert (set i: nat | i < |cs| && Fresh(cs, vs, [], now, i)) == {0};
    var h := Tick(cs, vs, [], now).history;
    assert h[0] in h;
  }
}

=== FILE: app.dfy ===
/** The application shell (App.tsx): the sign-in gate, the current screen,
    and the transitions between them.

    The shell reacts to what the rendered screen can send: the sign-in form
    submits (handled by `Login.Submit`, which calls back on success), the
    dashboard navigates or logs out, and every other screen has a Back
    button. An event the current screen cannot send changes nothing. The
    dashboard only navigates to the targets of its sidebar links and module
    cards, so `Navigate` is honoured for those targets only. */
module App {
  import opened Wrappers
  import opened Types
  import Login
  import Dashboard

  /** `isLoggedIn`, `currentView` and `user`. */
  datatype Shell = Shell(loggedIn: bool, view: AppView, user: Option<User>)

  /** The first render: signed out, on the main view. */
  const Start := Shell(false, MainView, None)

  datatype Event =
    | SubmitSignIn(stored: Option<seq<User>>, form: Login.Form, now: Millis)
    | Navigate(target: AppView)
    | Back
    | LogOut

  /** What is on screen. */
  datatype Screen = SignInScreen | ViewScreen(view: AppView, user: User)

  /** A signed-in session always has a user, an approved one, and only an
      administrator is ever on the administration screen; signed out, no
      user is kept and the view is the main one. */
  predicate Valid(s: Shell) {
    && (s.loggedIn <==> s.user.Some?)
    && (!s.loggedIn ==> s.view == MainView)
    && (s.user.Some? ==> s.user.value.status == Approved)
    && (s.view == AdminView ==> s.user.Some? && s.user.value.role == AdminRole)
  }

  /** `handleLogin`. */
  function SignIn(s: Shell, u: User): (r: Shell)
    ensures r.loggedIn && r.user == Some(u) && r.view == s.view
  {
    s.(user := Some(u), loggedIn := true)
  }

  /** `handleLogout`: signed out, no user, back to the main view. */
  function SignOut(s: Shell): (r: Shell)
    ensures r == Start
  {
    Shell(false, MainView, None)
  }

  /** The screens the dashboard offers a way to for this user. */
  predicate DashboardOffers(u: User, target: AppView) {
    var entries := Dashboard.Sidebar(u, Dashboard.Initial);
    var cards := Dashboard.Cards(Dashboard.Initial);
    || (exists i :: 0 <= i < |entries| && entries[i].target == target)
    || (exists i :: 0 <= i < |cards| && cards[i].target == target)
  }

  /** One event, delivered to whatever is on screen. */
  function Step(s: Shell, e: Event): (r: Shell)
    requires Valid(s)
    ensures Valid(r)
    ensures !s.loggedIn && e.SubmitSignIn? ==>
              match Login.Submit(e.stored, e.form, e.now).outcome
              case LoggedIn(u) => r == SignIn(s, u)
              case _ => r == s
    ensures s.loggedIn && s.view == MainView && e.Navigate? ==>
              r == (if DashboardOffers(s.user.value, e.target) then s.(view := e.target) else s)
    ensures s.loggedIn && s.view == MainView && e.LogOut? ==> r == Start
    ensures s.loggedIn && s.view != MainView && e.Back? ==> r == s.(view := MainView)
    ensures !s.loggedIn && !e.SubmitSignIn? ==> r == s
    ensures s.loggedIn && e.SubmitSignIn? ==> r == s
    ensures s.loggedIn && s.view == MainView && e.Back? ==> r == s
    ensures s.loggedIn && s.view != MainView && (e.Navigate? || e.LogOut?) ==> r == s
  {
    match e
    case SubmitSignIn(stored, form, now) =>
      if s.loggedIn then s
      else
        (match Login.Submit(stored, form, now).outcome
         case LoggedIn(u) =>
           Login.OnlyApprovedSignIn(stored, form, now);
           SignIn(s, u)
         case _ => s)
    case Navigate(target) =>
      if s.loggedIn && s.view == MainView && DashboardOffers(s.user.value, target) then
        if target == AdminView then
          AdminLinkOnlyForAdmins(s.user.value);
          s.(view := target)
        else s.(view := target)
      else s
    case Back =>
      if s.loggedIn && s.view != MainView then s.(view := MainView) else s
    case LogOut =>
      if s.loggedIn && s.view == MainView then SignOut(s) else s
  }

  /** Only an administrator's dashboard leads to the administration screen. */
  lemma AdminLinkOnlyForAdmins(u: User)
    requires DashboardOffers(u, AdminView)
    ensures u.role == AdminRole
  {
    var cards := Dashboard.Cards(Dashboard.Initial);
    assert forall i :: 0 <= i < |cards| ==> cards[i].target != AdminView;
  }

  /** The shell after a sequence of events from the first render. */
  function Run(es: seq<Event>): (s: Shell)
    ensures Valid(s)
  {
    if |es| == 0 then Start else Step(Run(es[..|es| - 1]), es[|es| - 1])
  }

  /** `renderView`: the sign-in form while signed out, otherwise the current
      view for the signed-in user; the user is always there to hand over. */
  function Render(s: Shell): (r: Screen)
    requires Valid(s)
    ensures r.SignInScreen? <==> !s.loggedIn
    ensures r.ViewScreen? ==> r.view == s.view && Some(r.user) == s.user
  {
    if !s.loggedIn then SignInScreen else ViewScreen(s.view, s.user.value)
  }

  /** A successful sign-in, from any signed-out state, shows the dashboard
      for the account the form found. */
  lemma SignInLandsOnMain(es: seq<Event>, stored: Option<seq<User>>, form: Login.Form, now: Millis)
    requires !Run(es).loggedIn
    requires Login.Submit(stored, form, now).outcome.LoggedIn?
    ensures Render(Run(es + [SubmitSignIn(stored, form, now)]))
            == ViewScreen(MainView, Login.Submit(stored, form, now).outcome.user)
  {
    assert (es + [SubmitSignIn(stored, form, now)])[..|es|] == es;
  }

  /** Back always returns a signed-in user to the dashboard, whatever screen
      the dashboard led to. */
  lemma BackReturnsToDashboard(es: seq<Event>, target: AppView)
    requires Run(es).loggedIn && Run(es).view == MainView
    requires DashboardOffers(Run(es).user.value, target) && target != MainView
    ensures Run(es + [Navigate(target), Back]) == Run(es)
  {
    var es1 := es + [Navigate(target)];
    assert (es1 + [Back])[..|es1|] == es1 && es1[..|es|] == es;
    assert es + [Navigate(target), Back] == es1 + [Back];
  }
}

=== FILE: beeper.dfy ===
/** The audible alarm of the AI Analytics panel (components/AIAnalytics.tsx):
    a 1-second repeating tone that should run while some signal is out of
    bounds and the operator has not muted it.

    The tone generator itself is left out; what is modelled is the interval
    bookkeeping of the React effect that depends on `[activeAlertCount, isMuted]`:
    the ref holding the interval handle, the set of intervals actually
    running, and the cleanup React runs before each re-run and on unmount.

    Two versions are given. `EffectRun` follows the source, whose cleanup
    clears the interval but leaves the stale handle in the ref; the
    counterexample `CountChangeSilencesBeeper` shows the alarm falling silent
    while alerts are still active. `EffectRunFixed` also empties the ref in
    the cleanup, and `FixedBeeperTracksAlerts` proves the intended behaviour. */
module Beeper {
  import opened Wrappers

  /** The effect's dependencies. */
  datatype Deps = Deps(activeAlertCount: nat, isMuted: bool)

  /** `activeAlertCount > 0 && !isMuted`: the alarm ought to sound. */
  predicate ShouldBeep(d: Deps) {
    d.activeAlertCount > 0 && !d.isMuted
  }

  /** `beeperIntervalRef.current`, the handles of the intervals the browser is
      running, and the handle the next `setInterval` call returns. */
  datatype Timers = Timers(ref: Option<nat>, running: set<nat>, next: nat)

  /** No interval exists yet. */
  const Idle := Timers(None, {}, 1)

  /** Every running interval is the one the ref names, and handles still to
      be issued are fresh. */
  predicate Consistent(t: Timers) {
    && (t.ref.None? ==> t.running == {})
    && (t.ref.Some? ==> t.running <= {t.ref.value} && t.ref.value < t.next)
  }

  /** The effect body: start an interval if the alarm should sound and the ref
      is empty; stop the referenced one and empty the ref otherwise. */
  function Body(t: Timers, d: Deps): Timers {
    if ShouldBeep(d) then
      if t.ref.None? then Timers(Some(t.next), t.running + {t.next}, t.next + 1) else t
    else if t.ref.Some? then Timers(None, t.running - {t.ref.value}, t.next)
    else t
  }

  // ---------------------------------------------------------------------------
  // As written

  /** The cleanup as written: clears the referenced interval, keeps the ref. */
  function Cleanup(t: Timers): (r: Timers)
    ensures r.ref == t.ref && r.next == t.next
    ensures Consistent(t) ==> r.running == {}
  {
    if t.ref.Some? then t.(running := t.running - {t.ref.value}) else t
  }

  /** A re-run of the effect after its dependencies changed. */
  function EffectRun(t: Timers, d: Deps): (r: Timers)
    requires Consistent(t)
    ensures Consistent(r)
    ensures |r.running| <= 1
  {
    var r := Body(Cleanup(t), d);
    assert r.running <= (if r.ref.Some? then {r.ref.value} else {});
    SubsetOfSingleton(r.running, r.ref);
    r
  }

  lemma SubsetOfSingleton(s: set<nat>, o: Option<nat>)
    requires s <= (if o.Some? then {o.value} else {})
    ensures |s| <= 1
  {
    if o.Some? && s != {} {
      assert s == {o.value};
    }
  }

  /** The component with its current dependencies and timers. */
  datatype Host = Host(deps: Deps, timers: Timers)

  /** First render: the effect runs once. */
  function Mount(d: Deps): (h: Host)
    ensures h.deps == d && Consistent(h.timers)
  {
    Host(d, EffectRun(Idle, d))
  }

  /** A later render: the effect re-runs only when a dependency changed. */
  function Rerender(h: Host, d: Deps): (r: Host)
    requires Consistent(h.timers)
    ensures r.deps == d && Consistent(r.timers) && |r.timers.running| <= 1
    ensures d == h.deps ==> r == h
  {
    if d == h.deps then
      SubsetOfSingleton(h.timers.running, h.timers.ref);
      h
    else Host(d, EffectRun(h.timers, d))
  }

  /** Unmounting runs the cleanup; no interval is left behind. */
  function Unmount(h: Host): (t: Timers)
    requires Consistent(h.timers)
    ensures t.running == {}
  {
    Cleanup(h.timers)
  }

  /** The component after mounting with `ds[0]` and re-rendering with the
      rest. As written, at most one interval ever runs. */
  function Replay(ds: seq<Deps>): (h: Host)
    requires |ds| > 0
    ensures h.deps == ds[|ds| - 1]
    ensures Consistent(h.timers) && |h.timers.running| <= 1
  {
    if |ds| == 1 then
      var h := Mount(ds[0]);
      SubsetOfSingleton(h.timers.running, h.timers.ref);
      h
    else Rerender(Replay(ds[..|ds| - 1]), ds[|ds| - 1])
  }

  /** As written, the alarm falls silent when the alert count moves from one
      positive value to another while unmuted: the cleanup stops the interval,
      and the body then sees the stale handle in the ref and starts none. */
  lemma CountChangeSilencesBeeper()
    ensures var h := Replay([Deps(0, false), Deps(1, false), Deps(2, false)]);
            ShouldBeep(h.deps) && h.timers.running == {}
  {
    var ds := [Deps(0, false), Deps(1, false), Deps(2, false)];
    assert ds[..1] == [Deps(0, false)] && ds[..2][..1] == ds[..1];
    var h0 := Replay(ds[..1]);
    assert h0.timers == Idle;
    var h1 := Replay(ds[..2]);
    assert h1.timers == Timers(Some(1), {1}, 2);
  }

  // ---------------------------------------------------------------------------
  // Corrected

  /** The corrected cleanup: clears the referenced interval and empties the ref. */
  function CleanupFixed(t: Timers): (r: Timers)
    ensures r.ref.None? && r.next == t.next
    ensures Consistent(t) ==> r.running == {}
  {
    if t.ref.Some? then Timers(None, t.running - {t.ref.value}, t.next) else t
  }

  /** Exactly the referenced interval runs, and handles still to be issued are fresh. */
  predicate Exact(t: Timers) {
    && (t.ref.None? ==> t.running == {})
    && (t.ref.Some? ==> t.running == {t.ref.value} && t.ref.value < t.next)
  }

  /** A corrected re-run: afterwards one interval runs when the alarm should
      sound and none otherwise. */
  function EffectRunFixed(t: Timers, d: Deps): (r: Timers)
    requires Consistent(t)
    ensures Exact(r)
    ensures |r.running| == (if ShouldBeep(d) then 1 else 0)
  {
    Body(CleanupFixed(t), d)
  }

  function MountFixed(d: Deps): Host {
    Host(d, EffectRunFixed(Idle, d))
  }

  function RerenderFixed(h: Host, d: Deps): Host
    requires Consistent(h.timers)
  {
    if d == h.deps then h else Host(d, EffectRunFixed(h.timers, d))
  }

  /** The alarm runs exactly when it should. */
  predicate Tracks(h: Host) {
    Exact(h.timers) && |h.timers.running| == (if ShouldBeep(h.deps) then 1 else 0)
  }

  /** The component after mounting with `ds[0]` and re-rendering with the rest. */
  function ReplayFixed(ds: seq<Deps>): (h: Host)
    requires |ds| > 0
    ensures Exact(h.timers)
  {
    if |ds| == 1 then MountFixed(ds[0])
    else RerenderFixed(ReplayFixed(ds[..|ds| - 1]), ds[|ds| - 1])
  }

  /** Corrected, after any sequence of renders at most one interval runs, and
      one runs exactly when alerts are active and the alarm is not muted. */
  lemma {:induction false} FixedBeeperTracksAlerts(ds: seq<Deps>)
    requires |ds| > 0
    ensures Tracks(ReplayFixed(ds))
    ensures ReplayFixed(ds).deps == ds[|ds| - 1]
  {
    if |ds| > 1 {
      FixedBeeperTracksAlerts(ds[..|ds| - 1]);
    }
  }
}

=== FILE: dashboard.dfy ===
/** The main dashboard (components/MainDashboard.tsx): the sidebar, the
    module cards and the two counters that every three seconds are
    re-read from browser storage, the pending-registration count for
    administrators and the count of alerts still awaiting a correction.

    Storage contents are inputs: `users` is `imatoms_users` and `history`
    is `ai_analytics_history` (`None` when nothing is stored); the AI
    Analytics panel writes its whole ledger to that key after every change. */
module Dashboard {
  import opened Wrappers
  import opened Types
  import Seqs
  import Admin
  import Analytics

  /** The two badges' values. */
  datatype Counters = Counters(pendingCount: nat, activeAlertCount: nat)

  /** Both counters start at zero. */
  const Initial := Counters(0, 0)

  /** Alerts awaiting a correction in a ledger. */
  function OpenAlerts(history: seq<AnalyticsAlertHistory>): (n: nat)
    ensures n == |set i: nat | i < |history| && IsOpen(history[i])|
    ensures n <= |history|
  {
    var q := (i: nat) => i < |history| && IsOpen(history[i]);
    Seqs.CountAsIndexCount(history, IsOpen, q);
    Seqs.IndexCountIsCardinality(|history|, q);
    assert (set i: nat | i < |history| && q(i)) == set i: nat | i < |history| && IsOpen(history[i]);
    Seqs.Count(history, IsOpen)
  }

  /** `checkStatus`: a counter whose key is stored is recomputed from it; a
      counter whose key is missing keeps its previous value. */
  function CheckStatus(c: Counters, users: Option<seq<User>>, history: Option<seq<AnalyticsAlertHistory>>)
    : (r: Counters)
    ensures users.None? ==> r.pendingCount == c.pendingCount
    ensures users.Some? ==> r.pendingCount == |Admin.Visible(users.value, Admin.Only(UserStatus.Pending))|
    ensures history.None? ==> r.activeAlertCount == c.activeAlertCount
    ensures history.Some? ==> r.activeAlertCount == OpenAlerts(history.value)
  {
    Counters(
      match users case Some(us) => Admin.PendingCount(us) case None => c.pendingCount,
      match history case Some(h) => OpenAlerts(h) case None => c.activeAlertCount)
  }

  /** Polling is idempotent: checking twice against unchanged storage gives
      what checking once gives. */
  lemma CheckStatusIdempotent(c: Counters, users: Option<seq<User>>, history: Option<seq<AnalyticsAlertHistory>>)
    ensures CheckStatus(CheckStatus(c, users, history), users, history) == CheckStatus(c, users, history)
  {
  }

  /** After a sampling tick the alert badge grows by exactly the number of
      records the tick logged: every new record is open. */
  lemma TickRaisesBadge(configs: seq<AnalyticsConfig>, values: seq<real>,
                        history: seq<AnalyticsAlertHistory>, now: Millis)
    requires |values| == |configs|
    ensures var h := Analytics.Tick(configs, values, history, now).history;
            OpenAlerts(h) == OpenAlerts(history) + (|h| - |history|)
  {
    var h := Analytics.Tick(configs, values, history, now).history;
    var added := h[..|h| - |history|];
    assert h == added + history;
    forall k | 0 <= k < |added|
      ensures IsOpen(added[k])
    {
      var i :| Analytics.Fresh(configs, values, history, now, i) && h[k] == Analytics.NewAlert(configs[i], values[i], now);
    }
    Seqs.CountAll(added, IsOpen);
    Seqs.CountConcat(added, history, IsOpen);
  }

  /** Saving a correction lowers the alert badge by the number of open
      records sharing the selected id, and by at least one when the
      selected record is in the ledger and open. */
  lemma CorrectionLowersBadge(history: seq<AnalyticsAlertHistory>, k: nat, note: string, now: Millis)
    requires k < |history| && IsOpen(history[k])
    ensures OpenAlerts(Analytics.SaveCorrection(history, Some(history[k]), note, now)) < OpenAlerts(history)
  {
    var id := history[k].id;
    var p := (h: AnalyticsAlertHistory) => IsOpen(h) && h.id == id;
    Analytics.CorrectOpenCount(history, id, note, now);
    assert history == history[..k] + [history[k]] + history[k + 1..];
    Seqs.CountConcat(history[..k] + [history[k]], history[k + 1..], p);
    Seqs.CountConcat(history[..k], [history[k]], p);
  }

  /** Clearing the ledger with the right password zeroes the alert badge. */
  lemma ClearZeroesBadge(history: seq<AnalyticsAlertHistory>)
    ensures OpenAlerts(Analytics.ClearHistory(history, Analytics.ClearPassword).0) == 0
  {
  }

  // ---------------------------------------------------------------------------
  // Sidebar and cards

  /** A numeric badge is drawn only for a positive count. */
  function Badge(count: nat): (b: Option<nat>)
    ensures b.Some? <==> count > 0
    ensures b.Some? ==> b.value == count
  {
    if count > 0 then Some(count) else None
  }

  /** One sidebar link: the screen it opens and its badge. */
  datatype NavEntry = NavEntry(caption: string, target: AppView, badge: Option<nat>)

  /** The screens the sidebar always links to, in the order shown. */
  const LinkTargets := [MobileAppsView, DashboardMonitorView, AiAnalyticsView, AssetView,
                        WorkOrderView, PpmView, InventoryView]

  /** The sidebar's links, in order; the administration link and its
      pending badge appear only for administrators, after the others. */
  function Sidebar(user: User, c: Counters): (r: seq<NavEntry>)
    ensures |r| == |LinkTargets| + (if user.role == AdminRole then 1 else 0)
    ensures forall i :: 0 <= i < |LinkTargets| ==> r[i].target == LinkTargets[i]
    ensures (exists i :: 0 <= i < |r| && r[i].target == AdminView) <==> user.role == AdminRole
    ensures forall i :: 0 <= i < |r| ==> r[i].target != MainView
    ensures forall i :: 0 <= i < |r| && r[i].target == AiAnalyticsView ==> r[i].badge == Badge(c.activeAlertCount)
    ensures forall i :: 0 <= i < |r| && r[i].target == AdminView ==> r[i].badge == Badge(c.pendingCount)
    ensures forall i :: 0 <= i < |r| && r[i].badge.Some? ==> r[i].badge.value > 0
  {
    var common := [
      NavEntry("Mobile Apps Hub", MobileAppsView, None),
      NavEntry("Dashboard Monitor", DashboardMonitorView, None),
      NavEntry("AI Analytics", AiAnalyticsView, Badge(c.activeAlertCount)),
      NavEntry("Asset Database", AssetView, None),
      NavEntry("Work Order", WorkOrderView, None),
      NavEntry("PPM Schedule", PpmView, None),
      NavEntry("Inventory", InventoryView, None)];
    assert forall i :: 0 <= i < |common| ==> common[i].target != AdminView;
    if user.role == AdminRole then
      var r := common + [NavEntry("Admin Setup", AdminView, Badge(c.pendingCount))];
      assert r[|common|].target == AdminView;
      r
    else common
  }

  /** One module card: the screen it opens and whether it glows as alerting. */
  datatype Card = Card(title: string, target: AppView, isAlert: bool)

  /** The module grid: only the AI Analytics card can be alerting, and it is
      exactly when some alert awaits a correction. */
  function Cards(c: Counters): (r: seq<Card>)
    ensures forall i :: 0 <= i < |r| ==> r[i].target != MainView && r[i].target != AdminView
    ensures forall i :: 0 <= i < |r| ==> (r[i].isAlert <==> r[i].target == AiAnalyticsView && c.activeAlertCount > 0)
    ensures exists i :: 0 <= i < |r| && r[i].target == AiAnalyticsView
  {
    var r := [
      Card("Mobile Hub", MobileAppsView, false),
      Card("Dashboard Monitor", DashboardMonitorView, false),
      Card("Asset Database", AssetView, false),
      Card("Work Order", WorkOrderView, false),
      Card("AI Analytics", AiAnalyticsView, c.activeAlertCount > 0),
      Card("PPM Schedule", PpmView, false)];
    assert r[4].target == AiAnalyticsView;
    r
  }
}

=== FILE: login.dfy ===
/** Sign-in and registration (components/Login.tsx, `handleSubmit`).

    The user list lives in browser storage under `imatoms_users`; it is
    passed in as `stored` (`None` when nothing is stored) and the submit
    returns what storage holds afterwards. `Date.now()` is the input `now`. */
module Login {
  import opened Wrappers
  import opened Types
  import Text

  /** The account that is added whenever no user is named "admin". */
  const SeedAdmin := User("admin-1", "admin", AdminRole, "all", Some("admin@imatoms.pro"),
                          Approved, Some("admin1234"), None)

  const MissingFieldsMessage := "Please fill in all required fields."
  const TakenMessage := "Username or Email already exists."
  const PendingMessage := "Your account is pending approval by an administrator."
  const RejectedMessage := "Your registration has been rejected. Contact support."
  const InvalidMessage := "Invalid credentials. Hint: admin / admin1234"
  const RegisteredMessage := "Registration successful! Please wait for administrator approval."

  /** Whether the form is in its sign-in or its registration mode. */
  datatype Mode = SignIn | Register

  /** The form's fields when it is submitted. */
  datatype Form = Form(mode: Mode, username: string, password: string, email: string, building: string)

  /** What the form shows or does after a submit. */
  datatype Outcome =
    | LoggedIn(user: User)
    | Failed(error: string)
    | Registered(success: string)

  /** The outcome, the storage afterwards and the form's mode afterwards. */
  datatype Submitted = Submitted(outcome: Outcome, stored: Option<seq<User>>, mode: Mode)

  predicate HasUsername(users: seq<User>, name: string) {
    exists i :: 0 <= i < |users| && users[i].username == name
  }

  /** The user list with the seed administrator appended when no user is
      named "admin". */
  function EnsureAdmin(users: seq<User>): (r: seq<User>)
    ensures HasUsername(users, "admin") ==> r == users
    ensures !HasUsername(users, "admin") ==> r == users + [SeedAdmin]
    ensures HasUsername(r, "admin")
  {
    if HasUsername(users, "admin") then users
    else
      var r := users + [SeedAdmin];
      assert r[|users|].username == "admin";
      r
  }

  /** `users.find(...)`: the first user with the given name and password. */
  function FindUser(users: seq<User>, username: string, password: string): (r: Option<nat>)
    ensures r.Some? ==> && r.value < |users|
                        && users[r.value].username == username
                        && users[r.value].password == Some(password)
                        && forall j :: 0 <= j < r.value ==>
                             !(users[j].username == username && users[j].password == Some(password))
    ensures r.None? ==> forall j :: 0 <= j < |users| ==>
                          !(users[j].username == username && users[j].password == Some(password))
  {
    if |users| == 0 then None
    else if users[0].username == username && users[0].password == Some(password) then Some(0)
    else match FindUser(users[1..], username, password)
      case None => None
      case Some(k) => Some(k + 1)
  }

  /** Some user already has this name or this e-mail address. */
  predicate Taken(users: seq<User>, username: string, email: string) {
    exists i :: 0 <= i < |users| && (users[i].username == username || users[i].email == Some(email))
  }

  /** The account a registration creates. */
  function NewUser(f: Form, now: Millis): (u: User)
    ensures u.username == f.username && u.email == Some(f.email) && u.password == Some(f.password)
    ensures u.building == f.building && u.role == UserRole && u.status == UserStatus.Pending
    ensures u.createdAt == Some(now)
    ensures |u.id| > 5 && u.id[..5] == "user-"
    ensures Text.AllDigits(u.id[5..]) && Text.DigitsValue(u.id[5..]) == now
  {
    var u := User("user-" + Text.Decimal(now), f.username, UserRole, f.building, Some(f.email),
                  UserStatus.Pending, Some(f.password), Some(now));
    assert u.id[5..] == Text.Decimal(now);
    u
  }

  /** `handleSubmit`. */
  function Submit(stored: Option<seq<User>>, f: Form, now: Millis): (r: Submitted)
    // the administrator account is always present afterwards, but only
    // written back when it had to be added or a user registered
    ensures r.stored.Some? ==> HasUsername(r.stored.value, "admin")
    ensures var users := stored.GetOr([]);
            r.stored == stored <==> HasUsername(users, "admin") && !r.outcome.Registered?
    // a submit that does not register adds no user beyond the seed administrator
    ensures !r.outcome.Registered? ==> r.stored == stored || r.stored == Some(EnsureAdmin(stored.GetOr([])))
    // registration
    ensures f.mode == Register ==>
              var users := EnsureAdmin(stored.GetOr([]));
              if f.username == "" || f.email == "" || f.password == "" then
                r.outcome == Failed(MissingFieldsMessage) && r.mode == Register
              else if Taken(users, f.username, f.email) then
                r.outcome == Failed(TakenMessage) && r.mode == Register
              else
                && r.outcome == Registered(RegisteredMessage)
                && r.stored == Some(users + [NewUser(f, now)])
                && r.mode == SignIn
    // sign-in: the first user with these credentials decides
    ensures f.mode == SignIn ==>
              var users := EnsureAdmin(stored.GetOr([]));
              && r.mode == SignIn
              && match FindUser(users, f.username, f.password)
                 case None => r.outcome == Failed(InvalidMessage)
                 case Some(k) =>
                   match users[k].status
                   case Pending => r.outcome == Failed(PendingMessage)
                   case Rejected => r.outcome == Failed(RejectedMessage)
                   case Approved => r.outcome == LoggedIn(users[k])
  {
    var loaded := stored.GetOr([]);
    var users := EnsureAdmin(loaded);
    var afterSeed := if HasUsername(loaded, "admin") then stored else Some(users);
    if f.mode == Register then
      if f.username == "" || f.email == "" || f.password == "" then
        Submitted(Failed(MissingFieldsMessage), afterSeed, Register)
      else if Taken(users, f.username, f.email) then
        Submitted(Failed(TakenMessage), afterSeed, Register)
      else
        var r := users + [NewUser(f, now)];
        assert r[..|users|] == users;
        assert HasUsername(r, "admin") by {
          var i :| 0 <= i < |users| && users[i].username == "admin";
          assert r[i] == users[i];
        }
        Submitted(Registered(RegisteredMessage), Some(r), SignIn)
    else
      var outcome :=
        match FindUser(users, f.username, f.password)
        case None => Failed(InvalidMessage)
        case Some(k) =>
          match users[k].status
          case Pending => Failed(PendingMessage)
          case Rejected => Failed(RejectedMessage)
          case Approved => LoggedIn(users[k]);
      Submitted(outcome, afterSeed, SignIn)
  }

  /** Only approved accounts ever sign in, and with the credentials typed. */
  lemma OnlyApprovedSignIn(stored: Option<seq<User>>, f: Form, now: Millis)
    ensures var r := Submit(stored, f, now);
            r.outcome.LoggedIn? ==> && f.mode == SignIn
                                    && r.outcome.user.status == Approved
                                    && r.outcome.user.username == f.username
                                    && r.outcome.user.password == Some(f.password)
  {
  }

  /** With no user named "admin" stored, the hinted credentials sign in as
      the seed administrator, and the administrator is stored. */
  lemma SeedAdminSignsIn(stored: Option<seq<User>>, now: Millis)
    requires !HasUsername(stored.GetOr([]), "admin")
    ensures var r := Submit(stored, Form(SignIn, "admin", "admin1234", "", "ViMUT"), now);
            && r.outcome == LoggedIn(SeedAdmin)
            && r.stored == Some(stored.GetOr([]) + [SeedAdmin])
  {
    var users := stored.GetOr([]);
    var all := users + [SeedAdmin];
    var k := FindUser(all, "admin", "admin1234");
    assert all[|users|] == SeedAdmin;
    assert forall j :: 0 <= j < |users| ==> all[j].username != "admin";
    assert k == Some(|users|);
  }

  /** No two users share a username. */
  predicate UniqueUsernames(users: seq<User>) {
    forall i, j :: 0 <= i < j < |users| ==> users[i].username != users[j].username
  }

  /** A submit never stores two users with the same name. */
  lemma SubmitKeepsUsernamesUnique(stored: Option<seq<User>>, f: Form, now: Millis)
    requires UniqueUsernames(stored.GetOr([]))
    ensures var r := Submit(stored, f, now);
            r.stored.Some? ==> UniqueUsernames(r.stored.value)
  {
    var loaded := stored.GetOr([]);
    if !HasUsername(loaded, "admin") {
      AppendKeepsUnique(loaded, SeedAdmin);
    }
    var users := EnsureAdmin(loaded);
    if f.mode == Register && f.username != "" && f.email != "" && f.password != ""
       && !Taken(users, f.username, f.email) {
      AppendKeepsUnique(users, NewUser(f, now));
    }
  }

  lemma AppendKeepsUnique(users: seq<User>, u: User)
    requires UniqueUsernames(users) && !HasUsername(users, u.username)
    ensures UniqueUsernames(users + [u])
  {
  }

  /** A fresh registration cannot sign in: signing in with the same
      credentials reports that approval is pending. */
  lemma RegisteredCannotSignIn(stored: Option<seq<User>>, f: Form, now: Millis, later: Millis)
    requires f.mode == Register
    requires Submit(stored, f, now).outcome.Registered?
    ensures var s := Submit(stored, f, now).stored;
            Submit(s, f.(mode := SignIn), later).outcome == Failed(PendingMessage)
  {
    var users := EnsureAdmin(stored.GetOr([]));
    var s := users + [NewUser(f, now)];
    assert HasUsername(s, "admin") by {
      var i :| 0 <= i < |users| && users[i].username == "admin";
      assert s[i] == users[i];
    }
    assert EnsureAdmin(s) == s;
    var k := FindUser(s, f.username, f.password);
    assert s[|users|].username == f.username && s[|users|].password == Some(f.password);
    assert forall j :: 0 <= j < |users| ==> s[j].username != f.username;
    assert k == Some(|users|);
  }
}

=== FILE: seqs.dfy ===
/** Counting and filtering over sequences: the `Array.prototype.filter` and
    `filter(...).length` idioms every component of the console relies on. */
module Seqs {

  /** Number of elements of `s` that satisfy `p`, i.e. `s.filter(p).length`. */
  function Count<T>(s: seq<T>, p: T -> bool): (n: nat)
    ensures n <= |s|
  {
    if |s| == 0 then 0 else (if p(s[0]) then 1 else 0) + Count(s[1..], p)
  }

  /** `s.filter(p)`: the elements satisfying `p`, in their original order. */
  function Filter<T>(s: seq<T>, p: T -> bool): (r: seq<T>)
    ensures |r| == Count(s, p)
    ensures forall i :: 0 <= i < |r| ==> r[i] in s && p(r[i])
    ensures forall i :: 0 <= i < |s| && p(s[i]) ==> s[i] in r
  {
    if |s| == 0 then [] else (if p(s[0]) then [s[0]] else []) + Filter(s[1..], p)
  }

  /** Filtering distributes over concatenation: the relative order of the
      kept elements is the order they had in the input. */
  lemma {:induction false} FilterConcat<T>(a: seq<T>, b: seq<T>, p: T -> bool)
    ensures Filter(a + b, p) == Filter(a, p) + Filter(b, p)
    decreases |a|
  {
    if |a| == 0 {
      assert a + b == b;
    } else {
      assert (a + b)[1..] == a[1..] + b;
      FilterConcat(a[1..], b, p);
    }
  }

  /** Counting distributes over concatenation. */
  lemma {:induction false} CountConcat<T>(a: seq<T>, b: seq<T>, p: T -> bool)
    ensures Count(a + b, p) == Count(a, p) + Count(b, p)
    decreases |a|
  {
    if |a| == 0 {
      assert a + b == b;
    } else {
      assert (a + b)[1..] == a[1..] + b;
      CountConcat(a[1..], b, p);
    }
  }

  /** When every element satisfies `p`, all of them are counted. */
  lemma {:induction false} CountAll<T>(s: seq<T>, p: T -> bool)
    requires forall i :: 0 <= i < |s| ==> p(s[i])
    ensures Count(s, p) == |s|
    decreases |s|
  {
    if |s| > 0 {
      assert p(s[0]);
      CountAll(s[1..], p);
    }
  }

  /** Replacing one element changes the count by that element alone. */
  lemma CountReplace<T>(s: seq<T>, k: nat, x: T, p: T -> bool)
    requires k < |s|
    ensures Count(s[k := x], p) + (if p(s[k]) then 1 else 0) == Count(s, p) + (if p(x) then 1 else 0)
  {
    var a, b := s[..k], s[k + 1..];
    assert s == a + [s[k]] + b;
    assert s[k := x] == a + [x] + b;
    CountConcat(a + [s[k]], b, p);
    CountConcat(a, [s[k]], p);
    CountConcat(a + [x], b, p);
    CountConcat(a, [x], p);
  }

  /** The elements failing `p` and those satisfying it make up the whole
      sequence; `q` is any predicate that holds exactly where `p` fails. */
  lemma {:induction false} CountComplement<T>(s: seq<T>, p: T -> bool, q: T -> bool)
    requires forall i :: 0 <= i < |s| ==> (q(s[i]) <==> !p(s[i]))
    ensures Count(s, p) + Count(s, q) == |s|
    decreases |s|
  {
    if |s| > 0 {
      assert q(s[0]) <==> !p(s[0]);
      CountComplement(s[1..], p, q);
    }
  }

  /** Counting elements is counting the indices whose element qualifies. */
  lemma {:induction false} CountAsIndexCount<T>(s: seq<T>, p: T -> bool, q: nat -> bool)
    requires forall i :: 0 <= i < |s| ==> (q(i) <==> p(s[i]))
    ensures Count(s, p) == IndexCount(|s|, q)
    decreases |s|
  {
    if |s| > 0 {
      var n := |s|;
      var init := s[..n - 1];
      assert s == init + [s[n - 1]];
      CountConcat(init, [s[n - 1]], p);
      assert Count([s[n - 1]], p) == (if p(s[n - 1]) then 1 else 0);
      CountAsIndexCount(init, p, q);
    }
  }

  /** Number of indices below `n` satisfying `p`, counted one index at a time. */
  function IndexCount(n: nat, p: nat -> bool): nat {
    if n == 0 then 0 else IndexCount(n - 1, p) + (if p(n - 1) then 1 else 0)
  }

  /** The running count is the size of the set of indices it counts. */
  lemma {:induction false} IndexCountIsCardinality(n: nat, p: nat -> bool)
    ensures IndexCount(n, p) == |set i: nat | i < n && p(i)|
  {
    if n > 0 {
      IndexCountIsCardinality(n - 1, p);
      var prev := set i: nat | i < n - 1 && p(i);
      var cur := set i: nat | i < n && p(i);
      if p(n - 1) {
        assert cur == prev + {n - 1};
      } else {
        assert cur == prev;
      }
    }
  }
}

=== FILE: text.dfy ===
/** The few string operations the console performs: decimal rendering of a
    number (template literals), `padStart`, `includes` and `split(c)[0]`. */
module Text {

  predicate IsDigit(c: char) {
    '0' <= c <= '9'
  }

  predicate AllDigits(s: string) {
    forall i :: 0 <= i < |s| ==> IsDigit(s[i])
  }

  function DigitChar(d: nat): (c: char)
    requires d < 10
    ensures IsDigit(c)
  {
    ('0' as int + d) as char
  }

  /** The number a string of decimal digits denotes (leading zeros allowed). */
  function DigitsValue(s: string): nat
    requires AllDigits(s)
  {
    if |s| == 0 then 0 else 10 * DigitsValue(s[..|s| - 1]) + (s[|s| - 1] as int - '0' as int)
  }

  /** `String(n)` for a non-negative integer: shortest decimal rendering. */
  function Decimal(n: nat): (s: string)
    ensures 1 <= |s| && AllDigits(s)
    ensures DigitsValue(s) == n
    ensures n < 10 <==> |s| == 1
  {
    if n < 10 then [DigitChar(n)]
    else
      var s := Decimal(n / 10) + [DigitChar(n % 10)];
      assert s[..|s| - 1] == Decimal(n / 10);
      s
  }

  function Pow10(k: nat): (r: nat)
    ensures r >= 1
  {
    if k == 0 then 1 else 10 * Pow10(k - 1)
  }

  /** A number below `10^k` renders in at most `k` digits. */
  lemma {:induction false} DecimalWidth(n: nat, k: nat)
    requires 1 <= k && n < Pow10(k)
    ensures |Decimal(n)| <= k
  {
    if n >= 10 {
      DecimalWidth(n / 10, k - 1);
    }
  }

  /** `s.padStart(width, fill)`. */
  function PadStart(s: string, width: nat, fill: char): (r: string)
    ensures |r| == if |s| >= width then |s| else width
    ensures r[|r| - |s|..] == s
    ensures forall i :: 0 <= i < |r| - |s| ==> r[i] == fill
  {
    if |s| >= width then s else seq(width - |s|, _ => fill) + s
  }

  /** Leading zeros do not change the value of a digit string. */
  lemma {:induction false} LeadingZeros(z: string, s: string)
    requires forall i :: 0 <= i < |z| ==> z[i] == '0'
    requires AllDigits(s)
    ensures AllDigits(z + s)
    ensures DigitsValue(z + s) == DigitsValue(s)
    decreases |s|, |z|
  {
    if |s| == 0 {
      assert z + s == z;
      if |z| > 0 {
        LeadingZeros(z[..|z| - 1], s);
        assert z[..|z| - 1] + s == z[..|z| - 1];
      }
    } else {
      var s' := s[..|s| - 1];
      assert (z + s)[..|z + s| - 1] == z + s';
      LeadingZeros(z, s');
    }
  }

  /** `s.includes(sub)`: `sub` occurs in `s` starting at some position. */
  predicate Contains(s: string, sub: string) {
    sub <= s || (|s| > 0 && Contains(s[1..], sub))
  }

  /** A string lacking the first character of `sub` does not contain `sub`. */
  lemma {:induction false} MissingFirst(s: string, sub: string)
    requires |sub| > 0 && sub[0] !in s
    ensures !Contains(s, sub)
  {
    if |s| > 0 {
      assert sub[0] !in s[1..];
      MissingFirst(s[1..], sub);
    }
  }

  /** `s.split(c)[0]`: the part of `s` before the first `c`, or all of `s`. */
  function BeforeFirst(s: string, c: char): (r: string)
    ensures r <= s
    ensures c !in r
    ensures |r| < |s| ==> s[|r|] == c
  {
    if |s| == 0 || s[0] == c then "" else [s[0]] + BeforeFirst(s[1..], c)
  }
}

=== FILE: types.dfy ===
/** The records of types.ts that the modelled screens use, as immutable
    datatypes, with the fields those screens read or write. Timestamps, which
    the source keeps as ISO-8601 strings, are milliseconds since the Unix
    epoch; the optional fields kept (`x?: T`) are `Option<T>`. */
module Types {
  import opened Wrappers

  /** Milliseconds since the Unix epoch, as `Date.now()` returns them. */
  type Millis = nat

  /** The screens the application can show. */
  datatype AppView =
    | MainView
    | AssetView
    | WorkOrderView
    | PpmView
    | AdminView
    | InventoryView
    | AiAnalyticsView
    | MobileAppsView
    | DashboardMonitorView

  // ---------------------------------------------------------------------------
  // Threshold monitoring

  /** One monitored signal: its bounds and nominal value. Bounds such as 0.5
      and 0.9 are decimals, and only compared, so they are `real`s. */
  datatype AnalyticsConfig = AnalyticsConfig(
    id: string,
    name: string,
    unit: string,
    min: real,
    max: real,
    standard: real,
    appUrl: string)
  {
    /** The nominal value lies strictly between the bounds. */
    predicate WellOrdered() {
      min < standard < max
    }
  }

  datatype SignalStatus = Normal | Alert

  /** The latest reading of one config. */
  datatype AnalyticsSignal = AnalyticsSignal(
    configId: string,
    currentValue: real,
    status: SignalStatus,
    timestamp: Millis)

  /** Which bound an alert crossed. */
  datatype ThresholdType = Min | Max

  /** One entry of the alert ledger. `correction` and `resolvedAt` are both
      absent while the alert is open. */
  datatype AnalyticsAlertHistory = AnalyticsAlertHistory(
    id: string,
    configId: string,
    signalName: string,
    value: real,
    thresholdType: ThresholdType,
    thresholdValue: real,
    timestamp: Millis,
    correction: Option<string>,
    resolvedAt: Option<Millis>)

  /** `!h.resolvedAt`: the alert still awaits a correction. */
  predicate IsOpen(h: AnalyticsAlertHistory) {
    h.resolvedAt.None?
  }

  // ---------------------------------------------------------------------------
  // Users

  datatype Role = AdminRole | UserRole

  datatype UserStatus = Pending | Approved | Rejected

  datatype User = User(
    id: string,
    username: string,
    role: Role,
    building: string,
    email: Option<string>,
    status: UserStatus,
    password: Option<string>,
    createdAt: Option<Millis>)

  // ---------------------------------------------------------------------------
  // Work orders

  datatype WorkProgress = Pending | OnProcess | Complete

  /** The fields a requester fills in on the "new request" form. */
  datatype RequestForm = RequestForm(
    date: string,
    notificationTime: string,
    buildingName: string,
    mainFloor: string,
    mainArea: string,
    mainDepartment: string,
    typeArea: string,
    roomNo: string,
    jobDetail: string,
    codeEmergency: string,
    periodTime: string,
    priorityWork: string,
    staffNotificationName: string,
    phoneNumber: string)

  /** A work order: the request, its progress, and the fields the helpdesk
      (assignment) and the technician (completion) fill in later. */
  datatype WorkOrder = WorkOrder(
    workRequestNo: string,
    form: RequestForm,
    workProgress: WorkProgress,
    helpdeskName: Option<string>,
    technicianName: Option<string>,
    technicianTime: Option<string>,
    jobDetailFixed: Option<string>,
    customerSatisfy: Option<string>,
    totalConvertTime: Option<int>)
}

=== FILE: work_orders.dfy ===
/** The work-order lifecycle (components/WorkOrderManager.tsx): requests are
    created Pending, assigned by the helpdesk (On Process) and closed by a
    technician (Complete); the dashboard counts orders per state and the two
    work queues list the Pending and the On Process orders.

    The random request number is an input `n` (the source draws
    `Math.floor(Math.random() * 99999)`, so `0 <= n <= 99998`). */
module WorkOrders {
  import opened Wrappers
  import opened Types
  import Text
  import Seqs

  /** The largest number `Math.floor(Math.random() * 99999)` can return. */
  const MaxDraw: nat := 99998

  /** The two orders the manager starts with. */
  function SeedOrders(): (r: seq<WorkOrder>)
    ensures |r| == 2
    ensures r[0].workProgress == WorkProgress.Pending && r[1].workProgress == OnProcess
  {
    [ WorkOrder("RM24-00125",
        RequestForm("2024-05-20", "10:30", "ViMUT", "2", "OPD Floor 2", "OPD", "Clinic-OPD", "201",
                    "Air Condition Leakage", "No Code", "Normal time", "High<5min", "Admin", "088-xxx-xxxx"),
        WorkProgress.Pending, None, None, None, None, None, None),
      WorkOrder("RM24-00124",
        RequestForm("2024-05-19", "14:20", "ViMUT", "5", "Ward 501", "Nursing", "Clinic-IPD", "501",
                    "Electric Socket Repair", "No Code", "Normal time", "Medium<15min", "Staff B", "088-xxx-xxxx"),
        OnProcess, None, Some("นายประเสริฐ แก้วมณี"), None, None, None, None) ]
  }

  /** `RM24-` followed by the draw, zero-padded to five digits. */
  function RequestNumber(n: nat): (r: string)
    requires n <= MaxDraw
    ensures |r| == 10 && r[..5] == "RM24-"
    ensures Text.AllDigits(r[5..]) && Text.DigitsValue(r[5..]) == n
  {
    Text.DecimalWidth(n, 5);
    var digits := Text.Decimal(n);
    var padded := Text.PadStart(digits, 5, '0');
    Text.LeadingZeros(padded[..|padded| - |digits|], digits);
    assert padded == padded[..|padded| - |digits|] + digits;
    var r := "RM24-" + padded;
    assert r[5..] == padded;
    r
  }

  /** Different draws give different request numbers. */
  lemma RequestNumberInjective(n: nat, m: nat)
    requires n <= MaxDraw && m <= MaxDraw
    requires RequestNumber(n) == RequestNumber(m)
    ensures n == m
  {
    assert RequestNumber(n)[5..] == RequestNumber(m)[5..];
  }

  /** No two orders share a request number. */
  predicate UniqueNumbers(orders: seq<WorkOrder>) {
    forall i, j :: 0 <= i < j < |orders| ==> orders[i].workRequestNo != orders[j].workRequestNo
  }

  /** `handleCreateRequest`: append one Pending order built from the form. */
  function CreateRequest(orders: seq<WorkOrder>, n: nat, form: RequestForm): (r: seq<WorkOrder>)
    requires n <= MaxDraw
    ensures |r| == |orders| + 1 && r[..|orders|] == orders
    ensures var o := r[|orders|];
            && o.workRequestNo == RequestNumber(n) && o.form == form && o.workProgress == WorkProgress.Pending
            && o.helpdeskName.None? && o.technicianName.None? && o.technicianTime.None?
            && o.jobDetailFixed.None? && o.customerSatisfy.None? && o.totalConvertTime.None?
  {
    orders + [WorkOrder(RequestNumber(n), form, WorkProgress.Pending, None, None, None, None, None, None)]
  }

  /** Creation does not check the number against existing orders: drawing 125
      next to the seed orders duplicates `RM24-00125`. */
  lemma CreateMayDuplicateNumber(form: RequestForm)
    ensures var r := CreateRequest(SeedOrders(), 125, form);
            r[0].workRequestNo == r[2].workRequestNo
  {
    Text.DecimalWidth(125, 5);
    assert Text.Decimal(125) == "125";
    assert RequestNumber(125) == "RM24-00125";
  }

  /** The request number and form of two orders agree. */
  predicate SameRequest(a: WorkOrder, b: WorkOrder) {
    a.workRequestNo == b.workRequestNo && a.form == b.form
  }

  /** `assignWO`: with no order selected nothing happens; otherwise every order
      carrying the selected request number goes On Process with the chosen
      technician, helpdesk and time. */
  function Assign(orders: seq<WorkOrder>, selected: Option<WorkOrder>,
                  technician: string, helpdesk: string, time: string)
    : (r: seq<WorkOrder>)
    ensures selected.None? ==> r == orders
    ensures |r| == |orders|
    ensures selected.Some? ==> forall i :: 0 <= i < |r| ==>
              if orders[i].workRequestNo != selected.value.workRequestNo then r[i] == orders[i]
              else && SameRequest(r[i], orders[i])
                   && r[i].workProgress == OnProcess
                   && r[i].technicianName == Some(technician)
                   && r[i].helpdeskName == Some(helpdesk)
                   && r[i].technicianTime == Some(time)
                   && r[i].jobDetailFixed == orders[i].jobDetailFixed
                   && r[i].customerSatisfy == orders[i].customerSatisfy
                   && r[i].totalConvertTime == orders[i].totalConvertTime
  {
    match selected
    case None => orders
    case Some(s) =>
      seq(|orders|, i requires 0 <= i < |orders| =>
        if orders[i].workRequestNo == s.workRequestNo
        then orders[i].(workProgress := OnProcess, technicianName := Some(technician),
                        helpdeskName := Some(helpdesk), technicianTime := Some(time))
        else orders[i])
  }

  /** The fixed labour time a completion records. */
  const CompletionMinutes: int := 45

  /** `completeWO`: with no order selected nothing happens; otherwise every
      order carrying the selected request number goes Complete with the repair
      detail, the satisfaction rating and a labour time of 45. */
  function Complete(orders: seq<WorkOrder>, selected: Option<WorkOrder>, detailFixed: string, satisfy: string)
    : (r: seq<WorkOrder>)
    ensures selected.None? ==> r == orders
    ensures |r| == |orders|
    ensures selected.Some? ==> forall i :: 0 <= i < |r| ==>
              if orders[i].workRequestNo != selected.value.workRequestNo then r[i] == orders[i]
              else && SameRequest(r[i], orders[i])
                   && r[i].workProgress == WorkProgress.Complete
                   && r[i].jobDetailFixed == Some(detailFixed)
                   && r[i].customerSatisfy == Some(satisfy)
                   && r[i].totalConvertTime == Some(CompletionMinutes)
                   && r[i].technicianName == orders[i].technicianName
                   && r[i].helpdeskName == orders[i].helpdeskName
                   && r[i].technicianTime == orders[i].technicianTime
  {
    match selected
    case None => orders
    case Some(s) =>
      seq(|orders|, i requires 0 <= i < |orders| =>
        if orders[i].workRequestNo == s.workRequestNo
        then orders[i].(workProgress := WorkProgress.Complete, jobDetailFixed := Some(detailFixed),
                        customerSatisfy := Some(satisfy), totalConvertTime := Some(CompletionMinutes))
        else orders[i])
  }

  // ---------------------------------------------------------------------------
  // Counters and queues

  function InState(p: WorkProgress): WorkOrder -> bool {
    (o: WorkOrder) => o.workProgress == p
  }

  /** `orders.filter(o => o.work_progress === p).length`. */
  function StateCount(orders: seq<WorkOrder>, p: WorkProgress): nat {
    Seqs.Count(orders, InState(p))
  }

  /** The Pending, On Process and Complete counts add up to the total. */
  lemma {:induction false} StateCountsPartition(orders: seq<WorkOrder>)
    ensures StateCount(orders, WorkProgress.Pending) + StateCount(orders, OnProcess)
            + StateCount(orders, WorkProgress.Complete) == |orders|
    decreases |orders|
  {
    if |orders| > 0 {
      StateCountsPartition(orders[1..]);
    }
  }

  /** The helpdesk queue: the Pending orders, in their original order. */
  function HelpdeskQueue(orders: seq<WorkOrder>): (r: seq<WorkOrder>)
    ensures |r| == StateCount(orders, WorkProgress.Pending)
    ensures forall i :: 0 <= i < |r| ==> r[i] in orders && r[i].workProgress == WorkProgress.Pending
    ensures forall i :: 0 <= i < |orders| && orders[i].workProgress == WorkProgress.Pending ==> orders[i] in r
  {
    Seqs.Filter(orders, InState(WorkProgress.Pending))
  }

  /** The technician queue: the On Process orders, in their original order. */
  function TechnicianQueue(orders: seq<WorkOrder>): (r: seq<WorkOrder>)
    ensures |r| == StateCount(orders, OnProcess)
    ensures forall i :: 0 <= i < |r| ==> r[i] in orders && r[i].workProgress == OnProcess
    ensures forall i :: 0 <= i < |orders| && orders[i].workProgress == OnProcess ==> orders[i] in r
  {
    Seqs.Filter(orders, InState(OnProcess))
  }

  /** The queues follow the order list: appending orders appends to each queue. */
  lemma QueuesFollowOrder(a: seq<WorkOrder>, b: seq<WorkOrder>)
    ensures HelpdeskQueue(a + b) == HelpdeskQueue(a) + HelpdeskQueue(b)
    ensures TechnicianQueue(a + b) == TechnicianQueue(a) + TechnicianQueue(b)
  {
    Seqs.FilterConcat(a, b, InState(WorkProgress.Pending));
    Seqs.FilterConcat(a, b, InState(OnProcess));
  }

  predicate IsUrgent(o: WorkOrder) {
    Text.Contains(o.form.priorityWork, "High")
  }

  /** The "Urgent" card: orders whose priority mentions "High". */
  function UrgentCount(orders: seq<WorkOrder>): (n: nat)
    ensures n <= |orders|
  {
    Seqs.Count(orders, IsUrgent)
  }

  /** The priority badge on a queue card: the priority up to its first `<`. */
  function PriorityBadge(o: WorkOrder): (r: string)
    ensures r <= o.form.priorityWork
    ensures '<' !in r
    ensures |r| < |o.form.priorityWork| ==> o.form.priorityWork[|r|] == '<'
  {
    Text.BeforeFirst(o.form.priorityWork, '<')
  }

  /** The four priorities the request form offers. */
  predicate OfferedPriority(p: string) {
    p == "Low>15min" || p == "Medium<15min" || p == "High<5min" || p == "Critical"
  }

  /** Of the priorities the request form offers, only "High<5min" counts as
      urgent; "Critical" does not. */
  lemma UrgentIffHigh(o: WorkOrder)
    requires OfferedPriority(o.form.priorityWork)
    ensures IsUrgent(o) <==> o.form.priorityWork == "High<5min"
  {
    var p := o.form.priorityWork;
    if p == "High<5min" {
      assert "High" <= p;
    } else {
      assert p[0] != 'H';
      assert forall i :: 0 <= i < |p| ==> p[i] != 'H';
      Text.MissingFirst(p, "High");
    }
  }

  // ---------------------------------------------------------------------------
  // Lifecycle

  /** Assigning an order taken from the helpdesk queue, with request numbers
      unique, moves exactly one order from Pending to On Process. */
  lemma AssignFromQueue(orders: seq<WorkOrder>, k: nat, technician: string, helpdesk: string, time: string)
    requires UniqueNumbers(orders) && k < |orders|
    requires orders[k].workProgress == WorkProgress.Pending
    ensures var r := Assign(orders, Some(orders[k]), technician, helpdesk, time);
            && StateCount(r, WorkProgress.Pending) == StateCount(orders, WorkProgress.Pending) - 1
            && StateCount(r, OnProcess) == StateCount(orders, OnProcess) + 1
            && StateCount(r, WorkProgress.Complete) == StateCount(orders, WorkProgress.Complete)
  {
    var r := Assign(orders, Some(orders[k]), technician, helpdesk, time);
    assert r == orders[k := r[k]];
    Seqs.CountReplace(orders, k, r[k], InState(WorkProgress.Pending));
    Seqs.CountReplace(orders, k, r[k], InState(OnProcess));
    Seqs.CountReplace(orders, k, r[k], InState(WorkProgress.Complete));
  }

  /** Completing an order taken from the technician queue, with request
      numbers unique, moves exactly one order from On Process to Complete. */
  lemma CompleteFromQueue(orders: seq<WorkOrder>, k: nat, detailFixed: string, satisfy: string)
    requires UniqueNumbers(orders) && k < |orders|
    requires orders[k].workProgress == OnProcess
    ensures var r := Complete(orders, Some(orders[k]), detailFixed, satisfy);
            && StateCount(r, WorkProgress.Pending) == StateCount(orders, WorkProgress.Pending)
            && StateCount(r, OnProcess) == StateCount(orders, OnProcess) - 1
            && StateCount(r, WorkProgress.Complete) == StateCount(orders, WorkProgress.Complete) + 1
  {
    var r := Complete(orders, Some(orders[k]), detailFixed, satisfy);
    assert r == orders[k := r[k]];
    Seqs.CountReplace(orders, k, r[k], InState(WorkProgress.Pending));
    Seqs.CountReplace(orders, k, r[k], InState(OnProcess));
    Seqs.CountReplace(orders, k, r[k], InState(WorkProgress.Complete));
  }

  /** Without unique numbers the queues interfere: once an order is closed and
      a new request draws its number again, assigning the new request moves
      the closed order back to On Process. */
  lemma DuplicateNumberReopens(form: RequestForm, technician: string, helpdesk: string, time: string,
                               detailFixed: string, satisfy: string)
    ensures var s0 := SeedOrders();
            var s1 := Assign(s0, Some(s0[0]), technician, helpdesk, time);
            var s2 := Complete(s1, Some(s1[0]), detailFixed, satisfy);
            var s3 := CreateRequest(s2, 125, form);
            var s4 := Assign(s3, Some(s3[2]), technician, helpdesk, time);
            && s3[0].workProgress == WorkProgress.Complete
            && s3[2].workProgress == WorkProgress.Pending
            && s4[0].workProgress == OnProcess
            && s4[2].workProgress == OnProcess
  {
    Text.DecimalWidth(125, 5);
    assert Text.Decimal(125) == "125";
    assert RequestNumber(125) == "RM24-00125";
  }

  /** Creating a request adds one Pending order and leaves the other counts. */
  lemma CreateAddsPending(orders: seq<WorkOrder>, n: nat, form: RequestForm)
    requires n <= MaxDraw
    ensures var r := CreateRequest(orders, n, form);
            && StateCount(r, WorkProgress.Pending) == StateCount(orders, WorkProgress.Pending) + 1
            && StateCount(r, OnProcess) == StateCount(orders, OnProcess)
            && StateCount(r, WorkProgress.Complete) == StateCount(orders, WorkProgress.Complete)
  {
    var r := CreateRequest(orders, n, form);
    assert r == orders + [r[|orders|]];
    Seqs.CountConcat(orders, [r[|orders|]], InState(WorkProgress.Pending));
    Seqs.CountConcat(orders, [r[|orders|]], InState(OnProcess));
    Seqs.CountConcat(orders, [r[|orders|]], InState(WorkProgress.Complete));
  }
}

=== FILE: wrappers.dfy ===
/** Optional values, standing in for the source's `undefined`/`null` fields
    and for "nothing stored yet" in browser storage. */
module Wrappers {

  datatype Option<+T> = None | Some(value: T) {

    /** Returns the value held in Some, or `default` when None. */
    function GetOr(default: T): (r: T)
      ensures Some? ==> r == value
      ensures None? ==> r == default
    {
      match this
      case Some(v) => v
      case None => default
    }
  }
}
